=== FILE: README.md ===
# session_manager in Dafny

A model of the two core packages of the Go library `session_manager`, with proofs about
that model.

- **`memory`** is the in-memory session provider. It keeps two structures:
  - an index `sessions` from session id to the list element holding the `SessionStore`
    (id, last-access time, key/value bag);
  - a recency list of the same stores, meant to run from the most recently used at the
    front to the least recently used at the back.

  It offers `SessionInit`, `SessionRead`, `SessionDestroy`, `SessionUpdate` and
  `SessionGC`. Each store offers `Set`, `Get`, `Delete` and `SessionID`, and the first
  three refresh the session through `SessionUpdate`.
- **`session`** holds the provider registry (`Register`), the `Manager` built by
  `NewManager`, and the request-level operations `SessionStart`, `SessionDestroy` and
  `GC`. It also holds `sessionId`, which turns 32 random bytes into URL-safe base64 and
  returns the empty string when randomness fails.

The model is functional: each provider operation takes a state and returns the next one,
and the clock comes in as an argument `now`. The Dafny modules are:

| module | file | contents |
|---|---|---|
| `Wrappers` | wrappers.dfy | `Option`, `Result` |
| `Seqs` | seqs.dfy | duplicate-freedom and removal of one element from a sequence |
| `Store` | store.dfy | `SessionStore` and its value operations |
| `Memory` | memory.dfy | the provider state and its operations; `Valid` states that index and list agree |
| `Invariants` | invariants.dfy | each operation keeps `Valid`; round trips and idempotence; whole runs of calls |
| `Recency` | recency.dfy | the ordering the GC sweep relies on, which operations keep it, and what the sweep achieves on an ordered list |
| `FrontInsert` | frontinsert.dfy | the provider with front-inserting `SessionInit`, under which every run stays ordered |
| `Session` | session.dfy | the registry, the manager, the request decisions of `SessionStart` and `SessionDestroy`, and `sessionId` |
| `Lifecycle` | lifecycle.dfy | `SessionStart`, `SessionDestroy` and `GC` of the manager carried out on the in-memory provider |
| `Linked` | linked.dfy | the provider at the level of list elements (Go's `*list.Element`), where two elements may carry the same id |
| `Orphans` | orphans.dfy | what becomes of an orphan: an element left listed after its id was indexed to another one |
| `Bridge` | bridge.dfy | on states without orphans, `Memory` is `Linked` seen through the ids |

`Memory` names a list element by the id it carries. That is exact as long as no two
elements carry the same id: `Bridge` proves that, on such states, `Memory.Init` (of a
fresh id), `Memory.Read`, `Memory.Destroy`, `Memory.Update` and `Memory.GC` are the
element-level operations of `Linked` seen through the ids, and that these five keep such
states that way. Only a duplicate `SessionInit` leaves
an orphan; from then on `Linked` and `Orphans` follow the code, and `Memory` does not.

Behaviour follows the Go code as written. These points matter for the proofs:

- `SessionInit` appends the new store at the BACK of the list (`PushBack`, memory/memory.go:81),
  although the comments at memory/memory.go:118 and 138 say the most recent store sits at the
  front. The model follows the code. `Recency.InitBreaksOrdered` and `Recency.GCMissesExpiredAfterInit` show the
  consequence (see Findings).
- `SessionInit` does not check for duplicates. Given an id that is already indexed, the
  index entry is overwritten and the old list element is left behind, so the id is then
  in the list twice (`Invariants.InitExistingOrphans`, `Orphans.InitDuplicateOrphans`).
  `sessionId` returns the empty id whenever randomness fails, so two such failures are
  enough. When `SessionGC` later sweeps the orphan, it deletes the index entry of its id,
  which by then points to the live element (see Findings).
- `SessionGC` only ever looks at the back of the list. It stops at the first live entry
  there, so anything expired in front of that entry survives the pass.
- `SessionStart` unescapes the cookie value before reading the session. `SessionDestroy`
  passes the raw cookie value to the provider. The cookie issued by `SessionStart` holds
  the escaped id: 32 bytes in URL-safe base64 end in `=`, which query escaping writes as
  `%3D`. So logging out with that cookie does not remove the session (see Findings).
- `SessionRead` and `SessionDestroy` take no lock, unlike `SessionInit`, `SessionUpdate`
  and `SessionGC`. Locks are not modelled, so this only affects concurrency (see Left out).

External facts are parameters:

- The result of reading randomness (`Session.Entropy`) and the base64 encoder (`encode`).
- `url.QueryEscape` and `url.QueryUnescape`, as a `QueryCodec`. The one assumed fact,
  `RoundTrips`, is that unescaping undoes escaping. Only the lemmas that need it name it
  in their precondition.
- The request's cookie: `None` when there is none, `Some(v)` otherwise. A `Set-Cookie`
  directive is a `Cookie` value.

## Model

| member | source | states |
|---|---|---|
| Store.NewStore | memory/memory.go:79-80 | a new store carries the given id, the creation time, and no values |
| Store.Lookup | memory/memory.go:39-43 | a key's value is returned exactly when the key is set; otherwise there is nothing (Go's nil) |
| Store.Put | memory/memory.go:28 | after binding, the key looks up to the new value, every other key looks up as before, and id and access time are untouched |
| Store.Drop | memory/memory.go:50 | after removal the key looks up to nothing, every other key looks up as before, and id and access time are untouched |
| Memory.Empty | memory/memory.go:152-153 | the provider the package starts with is consistent and holds no session |
| Memory.Init | memory/memory.go:75-84 | `SessionInit` returns an empty store for `sid` stamped `now` and indexes it. Every other indexed store is unchanged. The list keeps its old entries in order and gains `sid` at the back |
| Memory.InitFront | memory/memory.go:81 | the corrected `SessionInit`: the same store and index, with `sid` at the front followed by the old list |
| Memory.Read | memory/memory.go:89-98 | `SessionRead` of an indexed id returns its store and changes nothing. An unknown id is handed to `SessionInit`. On a consistent provider the returned store has the requested id |
| Memory.Destroy | memory/memory.go:102-109 | `SessionDestroy` of an indexed id removes it from index and list and leaves every other store unchanged. An unknown id changes nothing. The list gains no new entries |
| Memory.Update | memory/memory.go:139-149 | `SessionUpdate` of an indexed id stamps its store `now` and moves it to the front; the rest of the list keeps its order without it. Other stores and the set of ids are unchanged. An unknown id changes nothing |
| Memory.Set | memory/memory.go:27-32 | `Set` binds the key in the session's store, leaves its other keys, and stamps it `now`. The list is reordered exactly as by `SessionUpdate`. Other sessions are unchanged. An unknown session changes nothing |
| Memory.Get | memory/memory.go:36-44 | `Get` is `SessionUpdate` followed by a lookup: the key's value, or nothing when the key or the session is unknown |
| Memory.Delete | memory/memory.go:48-54 | `Delete` unbinds the key in the session's store, leaves its other keys, and stamps it `now`. The list is reordered as by `SessionUpdate`. Other sessions are unchanged |
| Memory.GC | memory/memory.go:113-135 | the survivors of `SessionGC` are a prefix of the list, and every entry cut from the back was indexed and expired. The sweep stops only at an empty list or at a back entry that is unindexed or live. Surviving stores are unchanged |
| Invariants.InitFreshKeepsValid | memory/memory.go:75-84 | `SessionInit` with an id not yet indexed keeps index and list consistent |
| Invariants.InitFrontFreshKeepsValid | memory/memory.go:81 | so does the front-inserting `SessionInit` |
| Invariants.InitExistingOrphans | memory/memory.go:81-82 | `SessionInit` with an id already indexed puts that id in the list twice; index and list are no longer consistent |
| Invariants.ReadKeepsValid | memory/memory.go:89-98 | `SessionRead` keeps index and list consistent, whether it finds the id or initialises it |
| Invariants.ReadTwice | memory/memory.go:89-96 | a second `SessionRead` of the same id returns the same store and changes nothing, even when the first one created it |
| Invariants.DestroyKeepsValid | memory/memory.go:102-109 | `SessionDestroy` keeps index and list consistent |
| Invariants.DestroyKeepsRelativeOrder | memory/memory.go:103-105 | destroying the id at list position `i` closes exactly that gap |
| Invariants.DestroyIdempotent | memory/memory.go:102-109 | destroying twice is the same as destroying once |
| Invariants.UpdateKeepsValid | memory/memory.go:139-149 | `SessionUpdate` keeps index and list consistent |
| Invariants.UpdateMovesToFront | memory/memory.go:145 | `SessionUpdate` of the id at position `i` yields the list with that id first, followed by the entries before and after it in their old order |
| Invariants.SetKeepsValid | memory/memory.go:27-32 | `Set` keeps index and list consistent |
| Invariants.GetKeepsValid | memory/memory.go:36-44 | `Get` keeps index and list consistent |
| Invariants.DeleteKeepsValid | memory/memory.go:48-54 | `Delete` keeps index and list consistent |
| Invariants.DropBackKeepsValid | memory/memory.go:124-126 | one round of the GC loop, removing the back entry from list and index, keeps them consistent |
| Invariants.GCKeepsValid | memory/memory.go:113-135 | `SessionGC` keeps index and list consistent |
| Invariants.GCIdempotent | memory/memory.go:117-134 | a second sweep at the same time with the same lifetime removes nothing |
| Invariants.SetThenGet | memory/memory.go:27-44 | `Get` after `Set` of the same key yields the value set |
| Invariants.DeleteThenGet | memory/memory.go:36-54 | `Get` after `Delete` of the same key yields nothing |
| Invariants.GetUnset | memory/memory.go:39-43 | `Get` of a key never set yields nothing and still refreshes the session's access time |
| Invariants.GetReorders | memory/memory.go:36-38 | `Get` moves the session to the front of the list, the other entries in their old order, and keeps the set of ids |
| Invariants.SetReorders | memory/memory.go:27-30 | `Set` does the same to the list |
| Invariants.StepKeepsValid | memory/memory.go:75-149 | every provider call keeps index and list consistent, given a fresh id for `SessionInit` |
| Invariants.RunKeepsValid | memory/memory.go:58-60 | over any sequence of calls with fresh `SessionInit` ids, index and list stay consistent, and the store under each id reports that id from `SessionID` |
| Recency.UpdateKeepsOrdered | memory/memory.go:138-146 | with a clock that has not gone backwards, `SessionUpdate` keeps access times non-increasing from front to back |
| Recency.DestroyKeepsOrdered | memory/memory.go:102-109 | `SessionDestroy` keeps the list ordered by access time |
| Recency.GCKeepsOrdered | memory/memory.go:117-134 | `SessionGC` keeps the list ordered by access time |
| Recency.SetKeepsOrdered | memory/memory.go:27-32 | `Set` keeps the list ordered by access time |
| Recency.DeleteKeepsOrdered | memory/memory.go:48-54 | `Delete` keeps the list ordered by access time |
| Recency.StepKeepsOrdered | memory/memory.go:138-149 | every call except `SessionInit`, and except a `SessionRead` that creates, keeps the list ordered by access time |
| Recency.GCSurvivorsListed | memory/memory.go:124-126 | after `SessionGC` on a consistent provider, a session is indexed exactly when it is in the list |
| Recency.GCClearsExpired | memory/memory.go:118-132 | on a consistent, ordered provider, `SessionGC` leaves no expired session: stopping at the first live entry from the back is enough |
| Recency.InitOrderedOnlyIf | memory/memory.go:80-81 | if the list is ordered after `SessionInit` of a fresh id, no existing store was accessed before `now` |
| Recency.InitOrderedIff | memory/memory.go:80-81 | `SessionInit` of a fresh id keeps an ordered list ordered exactly when no existing store was accessed before `now` |
| Recency.InitBreaksOrdered | memory/memory.go:81 | two sessions created at times 1 and 2 leave a consistent list that is not ordered |
| Recency.GCMissesExpiredAfterInit | memory/memory.go:117-134 | sessions created at 0 and 100 and swept at 200 with lifetime 150: the expired first session survives, hidden in front of the live one |
| Recency.GCRemovesOnlyStale | memory/memory.go:117-134 | sessions last accessed 0, 10, 50 and 200 seconds ago, swept with lifetime 100: only the last one is removed; the others keep their order |
| Recency.InitFrontKeepsOrdered | memory/memory.go:138 | the front-inserting `SessionInit` of a fresh id keeps the list ordered when the clock has not gone backwards |
| Recency.GCClearsExpiredAfterInitFront | memory/memory.go:118-119 | with front insertion, the scenario above sweeps the expired session and keeps the live one |
| FrontInsert.StepFrontKeepsOrdered | memory/memory.go:138 | with front insertion, every provider call keeps the state consistent and ordered, given a clock that has not gone backwards and a fresh `SessionInit` id |
| FrontInsert.RunFrontKeepsOrdered | memory/memory.go:118-119 | the same holds over any run of calls with a non-decreasing clock |
| FrontInsert.RunFrontThenGCComplete | memory/memory.go:129-132 | after any such run from the empty provider, one `SessionGC` pass leaves no expired session |
| Session.Register | session/session.go:49-57 | `Register` fails on a nil provider first, then on a name already registered, each with its own error. Otherwise the registry gains exactly that name, bound to the provider, and keeps every other entry |
| Session.NewManager | session/session.go:74-80 | `NewManager` fails exactly when the provider name is unregistered. Otherwise it holds the registered provider, the cookie name and the lifetime |
| Session.RegisterThenNewManager | session/session.go:49-80 | after registering a name, a manager can be built on it with that provider; other names behave as before |
| Session.Unescape | session/session.go:108 | a value that unescapes yields exactly the unescaped text, and one that fails to unescape yields the empty id; with a round-tripping codec, an escaped id yields that id |
| Session.StartPlan | session/session.go:94-111 | without a cookie, or with an empty one, `SessionStart` initialises the generated id and issues a cookie (escaped id, path `/`, HTTP-only, max age = lifetime). Otherwise it reads the unescaped id and writes no cookie |
| Session.DestroyPlan | session/session.go:120-133 | without a cookie, or with an empty one, `SessionDestroy` does nothing. Otherwise it destroys the session named by the raw cookie value and writes an expired cookie (empty value, max age -1) |
| Session.SessionId | session/session.go:156-162 | `sessionId` is the encoding of the random bytes, or the empty string when reading them failed |
| Session.IssuedCookieResumes | session/session.go:103-110 | the cookie `SessionStart` issues leads the next `SessionStart` to read the same id |
| Session.StartDestroySameTarget | session/session.go:108-127 | `SessionStart` and `SessionDestroy` given the same cookie address the same session exactly when the value unescapes to itself |
| Session.FailedRandomStartsEmptyId | session/session.go:156-160 | when randomness fails, `SessionStart` initialises the empty id and issues its escaped form |
| Lifecycle.SessionStart | session/session.go:87-114 | without a usable cookie, the result is the state and store of `SessionInit` on the generated id, plus the issued cookie. With one, it is `SessionRead` of the unescaped id, and no cookie. The issued cookie has the manager's name, the escaped id as its value, path `/`, `HttpOnly`, and `MaxAge` equal to the manager's lifetime |
| Lifecycle.SessionDestroy | session/session.go:119-134 | without a usable cookie nothing changes. With one, the provider destroys the raw cookie value, and the cookie written back has the manager's name, an empty value, path `/`, `HttpOnly`, `MaxAge` -1 and an expiry of now |
| Lifecycle.SessionDestroyUnescaped | session/session.go:127 | the corrected `SessionDestroy`: it destroys the unescaped cookie value, as `SessionStart` reads it |
| Lifecycle.RunGC | session/session.go:143-147 | one manager GC pass sweeps with the manager's lifetime. Survivors are a prefix of the list, and everything removed was expired |
| Lifecycle.StartKeepsValid | session/session.go:87-114 | `SessionStart` keeps the provider consistent when a generated id is new. The returned store is the one indexed under its id |
| Lifecycle.StartTwiceSameStore | session/session.go:106-110 | two `SessionStart`s with the same cookie return the same store; the second changes nothing and writes no cookie |
| Lifecycle.NewSessionResumes | session/session.go:94-110 | a session started without a cookie is found again, still empty and unchanged, through the cookie it issued |
| Lifecycle.DestroyWithIssuedCookie | session/session.go:127 | logging out with the cookie `SessionStart` issued removes the session exactly when escaping leaves the id unchanged |
| Lifecycle.LogoutRemovesSession | session/session.go:127 | with the corrected destroy, logging out with the issued cookie removes the session and keeps the provider consistent; the next `SessionStart` with that cookie gets an empty store |
| Lifecycle.DestroyThenStartIsFresh | session/session.go:119-134 | after a logout with a cookie that unescapes to itself, the same cookie gets a brand-new empty store |
| Lifecycle.StartWithFailedRandom | session/session.go:156-160 | when randomness fails, `SessionStart` without a cookie creates a session under the empty id, at the back of the list |
| Lifecycle.RunGCLeavesLive | session/session.go:143-147 | on a consistent, ordered provider, one manager GC pass leaves it consistent and holding only live sessions |
| Store.SessionIDKept | memory/memory.go:58-60 | `SessionID` answers the id a store was created with, and binding or unbinding a value never changes it |
| Memory.ExpiryIsMonotone | memory/memory.go:124 | a store expired at one time stays expired at every later time, under every shorter lifetime, and for every store accessed no later; it is still live at the very second its lifetime runs out and expired one second after |
| Session.PanicMessageInjective | session/session.go:51-54 | the two panic texts of `Register` never coincide, and the duplicate text determines the provider name it carries |
| Session.RegisterPanicMessage | session/session.go:50-55 | `Register` panics with the nil-provider text exactly when no provider is given; on a taken name it panics with the duplicate text naming that provider |
| Session.NoCookieIsEmptyCookie | session/session.go:94-121 | a missing cookie and an empty one are handled alike by `SessionStart` and `SessionDestroy`; `SessionStart` initialises exactly when `SessionDestroy` does nothing, and issues a cookie exactly when `SessionDestroy` writes none |
| Linked.Empty | memory/memory.go:152-153 | the provider the package starts with is well formed, holds no element and has no orphan |
| Linked.Init | memory/memory.go:75-84 | `SessionInit` pushes a new element holding an empty store for `sid`, stamped `now`, at the back and indexes `sid` to it. Other index entries and existing elements are unchanged |
| Linked.Read | memory/memory.go:89-98 | `SessionRead` of an indexed id returns the store of its element and changes nothing. An unknown id is handed to `SessionInit`. The returned store carries the requested id |
| Linked.Destroy | memory/memory.go:102-109 | `SessionDestroy` removes the indexed element from the list and the id from the index. Other index entries and all stores are untouched. No element is added, and an unknown id changes nothing |
| Linked.Update | memory/memory.go:139-149 | `SessionUpdate` stamps the indexed element's store `now` and moves that element to the front, the others keeping their order. Index and other stores are untouched, and an unknown id changes nothing |
| Linked.GC | memory/memory.go:113-135 | `SessionGC` cuts a suffix of the list, every cut element expired by its own store. It stops at an empty list or a live back element, and only removes index entries |
| Orphans.InitKeepsWf | memory/memory.go:75-84 | `SessionInit` of any id, indexed or not, keeps the element-level state well formed |
| Orphans.InitFreshKeepsWhole | memory/memory.go:75-84 | `SessionInit` of an id not yet indexed leaves no orphan |
| Orphans.InitDuplicateOrphans | memory/memory.go:80-82 | `SessionInit` of an indexed id leaves the old element listed, carrying the id, while the index points elsewhere: an orphan |
| Orphans.DestroyKeepsWf | memory/memory.go:102-109 | `SessionDestroy` keeps the element-level state well formed |
| Orphans.DestroyLeavesOrphans | memory/memory.go:103-105 | `SessionDestroy` removes only the indexed element: every other listed element stays, an orphan of the same id included |
| Orphans.UpdateKeepsWf | memory/memory.go:139-149 | `SessionUpdate` keeps the element-level state well formed |
| Orphans.DropBackKeepsWf | memory/memory.go:124-126 | one round of the sweep, removing the back element and the index entry of its id, keeps the state well formed |
| Orphans.GCKeepsWf | memory/memory.go:113-135 | `SessionGC` keeps the element-level state well formed |
| Orphans.GCUnindexesSwept | memory/memory.go:126 | every id carried by a swept element loses its index entry, whichever element the entry pointed to |
| Orphans.GCDeletesOnlySwept | memory/memory.go:126 | an index entry is lost only if some swept element carries its id |
| Orphans.WholeGCKeepsLive | memory/memory.go:117-134 | without orphans, a session whose store is live keeps its index entry through `SessionGC` |
| Orphans.DuplicateInits | memory/memory.go:75-84 | two `SessionInit`s of the empty id, at 0 and at 5, list both elements and index the id to the second |
| Orphans.DuplicateInitsThenUpdate | memory/memory.go:139-149 | using that session at 6 moves the indexed element in front of the orphan, which stays at the back stamped 0 |
| Orphans.OrphanSweepLosesLiveSession | memory/memory.go:124-126 | a sweep at 12 with lifetime 10 removes the orphan and with it the index entry of the live element stamped 6. The live element stays listed but unreachable, and the next `SessionRead` creates a new empty store |
| Orphans.GCChecked | memory/memory.go:124-126 | the corrected sweep cuts a suffix of the list, every cut element expired, leaves the stores untouched, and keeps every index entry it does not remove unchanged |
| Orphans.GCCheckedKeepsUnswept | memory/memory.go:124-126 | with the corrected sweep, an index entry is dropped only when the element it points to is swept: every id indexed to an element that stays listed keeps that entry |
| Orphans.GCCheckedKeepsLive | memory/memory.go:124-126 | with the corrected sweep, every id indexed to a live element keeps that entry, orphans or not |
| Orphans.GCCheckedUnindexesSwept | memory/memory.go:124-126 | the corrected sweep still removes what it should: an id indexed to a swept element that carries it loses its entry, so no entry is left pointing outside the list |
| Orphans.CheckedDropBackKeepsWf | memory/memory.go:124-126 | one round of the corrected sweep, dropping the back element and its entry only when that entry points to it, keeps the element-level shape |
| Orphans.GCCheckedKeepsWf | memory/memory.go:113-135 | the corrected sweep keeps the element-level shape |
| Orphans.CheckedSweepKeepsSession | memory/memory.go:124-126 | on the orphan scenario, the corrected sweep removes the orphan and keeps the live session indexed |
| Bridge.AbsValid | memory/memory.go:75-149 | a well-formed element-level state without orphans, seen through its ids, is a consistent `Memory` provider |
| Bridge.InitAgrees | memory/memory.go:75-84 | on a state without orphans, `SessionInit` of a fresh id creates none and is `Memory.Init` seen through the ids, returned store included |
| Bridge.ReadAgrees | memory/memory.go:89-98 | on a state without orphans, `SessionRead` creates none and is `Memory.Read` seen through the ids, returned store included |
| Bridge.DestroyAgrees | memory/memory.go:102-109 | on a state without orphans, `SessionDestroy` creates none and is `Memory.Destroy` seen through the ids |
| Bridge.UpdateAgrees | memory/memory.go:139-149 | on a state without orphans, `SessionUpdate` creates none and is `Memory.Update` seen through the ids |
| Bridge.DropBackAgrees | memory/memory.go:124-126 | on a state without orphans, one round of the sweep creates none; the back element carries the last id and holds that id's store, and the round is `Memory`'s round seen through the ids |
| Bridge.GCAgrees | memory/memory.go:113-135 | on a state without orphans, `SessionGC` creates none and is `Memory.GC` seen through the ids |

## Left out

- Locking (`sync.Mutex` in `Provider` and `Manager`) and concurrency in general: each
  operation is one atomic step. `SessionRead` and `SessionDestroy` of the provider take no
  lock in the code; that race is not modelled.
- The clock: `time.Now()` is the parameter `now`, in whole Unix seconds. Go stores
  nanosecond times but `SessionGC` compares `Unix()` seconds. `SessionGC` reads
  `time.Now()` afresh in every round of its loop (memory/memory.go:124); the model uses one
  `now` for the whole sweep, so a sweep that straddles a second boundary is not modelled.
- The rescheduling of the manager's `GC` through `time.AfterFunc` is not modelled; only one
  pass is. Timers are outside the model. The code passes the lifetime in seconds to
  `time.Duration`, which counts nanoseconds.
- `crypto/rand`, base64 encoding and `url.QueryEscape`/`url.QueryUnescape` are parameters.
  The only assumption about them is the round trip, and only where it is named.
- `net/http`: cookie parsing and `Set-Cookie` serialisation. A cookie directive is a
  record, and `Expires: time.Now()` is the flag `expiresNow`.
- `interface{}` keys and values are generic `K` and `V`. In Go, a stored `nil` value and
  an unset key both come back as `nil` from `Get`; the model distinguishes them.
- The package-level provider `pder`, its registration under `"memory"` in `init`, and the
  global registry are explicit values passed to the operations.
- A nil `*Provider` handed to `Register` is not `nil` as an interface value; the model
  only knows present (`Some`) and nil (`None`).
- Session.NewManager: the error text formatted with `%q` is reduced to the provider name
  it carries.
- Memory.GC: `timeAccessed + maxlifetime` is unbounded here; int64 overflow is not
  modelled (nor in `Linked.GC`). `Memory.GC` tests the indexed store of the back id, so
  when the back element is an orphan it reads the live store's time where Go reads the
  orphan's own; `Linked.GC` reads the element's own store, as Go does.
- Memory.Destroy, Memory.Update, Memory.Set, Memory.Get, Memory.Delete: the model
  removes or moves every list entry carrying the id, where Go removes or moves only the
  indexed element. With an orphan in the list, `Memory` therefore drops or moves the
  orphan too, and misses that a later sweep of the orphan deletes the live session's index
  entry. `Linked` models the element-level behaviour of `SessionInit`, `SessionRead`,
  `SessionDestroy`, `SessionUpdate` and `SessionGC`, and `Orphans.OrphanSweepLosesLiveSession`
  shows the loss. `Set`, `Get` and `Delete` are `SessionUpdate` after a change to the
  indexed store's values, and are not restated at the element level.
- Memory.Set, Memory.Get, Memory.Delete: the session is addressed by id. A store handle
  kept by a caller after its session was destroyed or swept is not modelled; Go would
  still read or write that detached store.
- main/main.go, the example web application, is not part of this model.

## Findings

| source | as written | input that shows it | evidently intended | confidence | as-written member | corrected member |
|---|---|---|---|---|---|---|
| memory/memory.go:81 | `SessionInit` pushes the new store at the back of the list, where `SessionGC` looks for the oldest | sessions created at 0 and 100, swept at 200 with lifetime 150: the expired first one is kept | push at the front (memory/memory.go:118-119, 138), so the list stays newest-first and the sweep is complete | high, not executed | Recency.GCMissesExpiredAfterInit | FrontInsert.RunFrontThenGCComplete |
| session/session.go:127 | `SessionDestroy` destroys the raw cookie value, while `SessionStart` stored the escaped id in the cookie (session/session.go:103) and unescapes it on reading (session/session.go:108) | any id from `sessionId`: 32 bytes in URL-safe base64 end in `=`, escaped to `%3D`, so logging out with the issued cookie leaves the session in place | unescape the cookie value as `SessionStart` does, so logging out removes the session | high, not executed | Lifecycle.DestroyWithIssuedCookie | Lifecycle.LogoutRemovesSession |
| memory/memory.go:126 | `SessionGC` deletes the index entry of the swept element's id without checking that the entry points to that element | two `SessionStart`s whose random read fails both initialise the empty id, at 0 and 5; the session is used at 6; a sweep at 12 with lifetime 10 removes the orphan stamped 0 and the live session's index entry with it | delete the entry only when it points to the swept element, so an orphan goes alone | medium, not executed | Orphans.OrphanSweepLosesLiveSession | Orphans.GCCheckedKeepsLive, Orphans.GCCheckedUnindexesSwept |

=== FILE: bridge.dfy ===
/** The id-level provider `Memory` is the element-level provider `Linked` seen through its
    ids: on states without orphans, `Init` of a fresh id, `Read`, `Destroy`, `Update` and
    `GC` of one are the same operations of the other. */
module Bridge {
  import opened Seqs
  import opened Store
  import opened Linked
  import opened Orphans
  import Memory

  /** The ids carried by the listed elements, front to back. */
  function Ids<K, V>(p: Provider<K, V>): (r: seq<string>)
    requires Listed(p)
    ensures |r| == |p.list|
    ensures forall i :: 0 <= i < |p.list| ==> r[i] == p.heap[p.list[i]].sid
  {
    seq(|p.list|, i requires 0 <= i < |p.list| => p.heap[p.list[i]].sid)
  }

  /** Each indexed id reaches an element carrying it: the part of `Wf`'s index clause that
      `Stores` needs, without the list; `Wf` implies it. */
  ghost predicate Reaches<K, V>(p: Provider<K, V>)
  {
    forall s :: s in p.index ==> p.index[s] in p.heap && p.heap[p.index[s]].sid == s
  }

  /** The store each indexed id reaches. */
  function Stores<K, V>(p: Provider<K, V>): (m: map<string, SessionStore<K, V>>)
    requires Reaches(p)
    ensures forall s :: s in m <==> s in p.index
    ensures forall s :: s in m ==> m[s] == p.heap[p.index[s]]
  {
    map s | s in p.index :: p.heap[p.index[s]]
  }

  /** The element-level state seen through its ids. */
  function Abs<K, V>(p: Provider<K, V>): (a: Memory.Provider<K, V>)
    requires Wf(p)
    ensures Reaches(p) && a.sessions == Stores(p) && a.order == Ids(p)
  {
    Memory.Provider(Stores(p), Ids(p))
  }

  /** Without orphans, the id-level view is consistent. */
  lemma AbsValid<K, V>(p: Provider<K, V>)
    requires Wf(p) && Whole(p)
    ensures Memory.Valid(Abs(p))
  {
    var a := Abs(p);
    forall i, j | 0 <= i < j < |a.order| ensures a.order[i] != a.order[j] {
      assert p.list[i] in p.list && p.list[j] in p.list;
      assert p.list[i] != p.list[j];
    }
    forall s | s in a.sessions ensures s in a.order {
      var k :| 0 <= k < |p.list| && p.list[k] == p.index[s];
      assert a.order[k] == s;
    }
    forall s | s in a.order ensures s in a.sessions {
      var k :| 0 <= k < |a.order| && a.order[k] == s;
      assert p.list[k] in p.list;
    }
  }

  /** `SessionInit` appends the new id to the ids. */
  lemma InitIds<K, V>(p: Provider<K, V>, sid: string, now: int)
    requires Listed(p) && p.next !in p.heap
    ensures Listed(Init(p, sid, now).provider)
    ensures Ids(Init(p, sid, now).provider) == Ids(p) + [sid]
  {
    var q := Init(p, sid, now).provider;
    assert Listed(q);
    assert |Ids(q)| == |Ids(p) + [sid]|;
    forall i | 0 <= i < |q.list| ensures Ids(q)[i] == (Ids(p) + [sid])[i] {
      if i < |p.list| {
        assert q.list[i] == p.list[i] && p.list[i] in p.list;
      }
    }
  }

  /** Indexing an id to a new element holding its store binds that store under the id. */
  lemma StoresBind<K, V>(p: Provider<K, V>, q: Provider<K, V>, sid: string, t: nat, st: SessionStore<K, V>)
    requires Reaches(p) && t !in p.heap && st.sid == sid
    requires q.index == p.index[sid := t] && q.heap == p.heap[t := st]
    ensures Reaches(q) && Stores(q) == Stores(p)[sid := st]
  {
    forall s | s in q.index ensures q.index[s] in q.heap && q.heap[q.index[s]].sid == s {
      if s != sid {
        assert q.index[s] == p.index[s] != t;
      }
    }
    var m := Stores(p)[sid := st];
    assert forall s :: s in Stores(q) <==> s in m;
    forall s | s in m ensures Stores(q)[s] == m[s] {
      if s != sid {
        assert q.index[s] == p.index[s] != t;
      }
    }
  }

  /** A fresh `SessionInit` binds the new store under its id and leaves the other stores. */
  lemma InitStores<K, V>(p: Provider<K, V>, sid: string, now: int)
    requires Reaches(p) && p.next !in p.heap
    ensures Reaches(Init(p, sid, now).provider)
    ensures Stores(Init(p, sid, now).provider) == Stores(p)[sid := Init(p, sid, now).store]
  {
    var r := Init(p, sid, now);
    StoresBind(p, r.provider, sid, p.next, r.store);
  }

  /** `SessionInit` of a fresh id keeps a state without orphans free of them, and seen
      through its ids it is `Memory.Init`. */
  lemma InitAgrees<K, V>(p: Provider<K, V>, sid: string, now: int)
    requires Wf(p) && Whole(p) && sid !in p.index
    ensures Wf(Init(p, sid, now).provider) && Whole(Init(p, sid, now).provider)
    ensures Init(p, sid, now).store == Memory.Init(Abs(p), sid, now).value
    ensures Abs(Init(p, sid, now).provider) == Memory.Init(Abs(p), sid, now).provider
  {
    InitFreshKeepsWhole(p, sid, now);
    InitIds(p, sid, now);
    InitStores(p, sid, now);
  }

  /** `SessionRead` seen through its ids is `Memory.Read`. */
  lemma ReadAgrees<K, V>(p: Provider<K, V>, sid: string, now: int)
    requires Wf(p) && Whole(p)
    ensures Wf(Read(p, sid, now).provider) && Whole(Read(p, sid, now).provider)
    ensures Read(p, sid, now).store == Memory.Read(Abs(p), sid, now).value
    ensures Abs(Read(p, sid, now).provider) == Memory.Read(Abs(p), sid, now).provider
  {
    if sid !in p.index {
      InitAgrees(p, sid, now);
    }
  }

  /** Removing the element at `k` of the list removes its id at `k`. */
  lemma IdsRemoveAt<K, V>(p: Provider<K, V>, k: int, list: seq<nat>)
    requires Listed(p) && 0 <= k < |p.list| && list == p.list[..k] + p.list[k + 1..]
    ensures Listed(p.(list := list))
    ensures Ids(p.(list := list)) == Ids(p)[..k] + Ids(p)[k + 1..]
  {
    var q := p.(list := list);
    forall t | t in q.list ensures t in q.heap {
      var j :| 0 <= j < |list| && list[j] == t;
      if j < k {
        assert list[j] == p.list[j];
      } else {
        assert list[j] == p.list[j + 1];
      }
    }
    var w := Ids(p)[..k] + Ids(p)[k + 1..];
    forall j | 0 <= j < |list| ensures Ids(q)[j] == w[j] {
      if j < k {
        assert list[j] == p.list[j];
      } else {
        assert list[j] == p.list[j + 1];
      }
    }
  }

  /** The id of the indexed element of `sid` is at the element's position, and removing
      that element from the list removes `sid` from the ids. */
  lemma IdsWithout<K, V>(p: Provider<K, V>, sid: string)
    requires Wf(p) && Whole(p) && sid in p.index
    ensures Listed(p.(list := Without(p.list, p.index[sid])))
    ensures Ids(p.(list := Without(p.list, p.index[sid]))) == Without(Ids(p), sid)
  {
    var t := p.index[sid];
    var k :| 0 <= k < |p.list| && p.list[k] == t;
    WithoutAt(p.list, k);
    AbsValid(p);
    assert Ids(p)[k] == sid;
    WithoutAt(Ids(p), k);
    IdsRemoveAt(p, k, Without(p.list, t));
  }

  /** Destroying a known id drops its store and leaves the other stores. */
  lemma DestroyStores<K, V>(p: Provider<K, V>, sid: string)
    requires Reaches(p) && sid in p.index
    ensures Reaches(Destroy(p, sid))
    ensures Stores(Destroy(p, sid)) == Stores(p) - {sid}
  {
    var q := Destroy(p, sid);
    var m := Stores(p) - {sid};
    assert forall s :: s in Stores(q) <==> s in m;
  }

  /** `SessionDestroy` keeps a state without orphans free of them, and seen through its
      ids it is `Memory.Destroy`. */
  lemma DestroyAgrees<K, V>(p: Provider<K, V>, sid: string)
    requires Wf(p) && Whole(p)
    ensures Wf(Destroy(p, sid)) && Whole(Destroy(p, sid))
    ensures Abs(Destroy(p, sid)) == Memory.Destroy(Abs(p), sid)
  {
    DestroyKeepsWf(p, sid);
    if sid in p.index {
      var q := Destroy(p, sid);
      IdsWithout(p, sid);
      assert Ids(q) == Ids(p.(list := q.list));
      DestroyStores(p, sid);
      forall u | u in q.list ensures q.heap[u].sid in q.index && q.index[q.heap[u].sid] == u {
        assert u in p.list;
      }
    }
  }

  /** Replacing the store of the element an id reaches by one carrying the same id
      rebinds the id to the new store. */
  lemma StoresRebind<K, V>(p: Provider<K, V>, q: Provider<K, V>, sid: string, st: SessionStore<K, V>)
    requires Reaches(p) && sid in p.index && st.sid == sid
    requires q.index == p.index && q.heap == p.heap[p.index[sid] := st]
    ensures Reaches(q) && Stores(q) == Stores(p)[sid := st]
  {
    var m := Stores(p)[sid := st];
    assert forall s :: s in Stores(q) <==> s in m;
  }

  /** Updating a known id restamps its store and leaves the other stores. */
  lemma UpdateStores<K, V>(p: Provider<K, V>, sid: string, now: int)
    requires Wf(p) && sid in p.index
    ensures Reaches(p) && Reaches(Update(p, sid, now))
    ensures Stores(Update(p, sid, now)) == Stores(p)[sid := Stores(p)[sid].(timeAccessed := now)]
  {
    var t := p.index[sid];
    StoresRebind(p, Update(p, sid, now), sid, p.heap[t].(timeAccessed := now));
  }

  /** Putting an element in front of a list puts its id in front of the ids, when the
      heap keeps every element's id. */
  lemma IdsFront<K, V>(p: Provider<K, V>, q: Provider<K, V>, t: nat)
    requires Listed(p) && t in p.heap && q.list == [t] + p.list
    requires forall u :: u in p.heap ==> u in q.heap && q.heap[u].sid == p.heap[u].sid
    ensures Listed(q) && Ids(q) == [p.heap[t].sid] + Ids(p)
  {
    assert Listed(q);
    var w := [p.heap[t].sid] + Ids(p);
    forall j | 0 <= j < |q.list| ensures Ids(q)[j] == w[j] {
      if j > 0 {
        assert q.list[j] == p.list[j - 1] && p.list[j - 1] in p.list;
      }
    }
  }

  /** Moving the indexed element of `sid` to the front moves `sid` to the front of the ids. */
  lemma UpdateIds<K, V>(p: Provider<K, V>, sid: string, now: int)
    requires Wf(p) && Whole(p) && sid in p.index
    ensures Listed(Update(p, sid, now))
    ensures Ids(Update(p, sid, now)) == [sid] + Without(Ids(p), sid)
  {
    var t := p.index[sid];
    IdsWithout(p, sid);
    IdsFront(p.(list := Without(p.list, t)), Update(p, sid, now), t);
  }

  /** Moving an element to the front creates no orphan. */
  lemma UpdateKeepsWhole<K, V>(p: Provider<K, V>, sid: string, now: int)
    requires Wf(p) && Whole(p)
    ensures Wf(Update(p, sid, now)) && Whole(Update(p, sid, now))
  {
    UpdateKeepsWf(p, sid, now);
    if sid in p.index {
      var q := Update(p, sid, now);
      var t := p.index[sid];
      forall u | u in q.list ensures q.heap[u].sid in q.index && q.index[q.heap[u].sid] == u {
        if u != t {
          assert u in Without(p.list, t);
        }
      }
    }
  }

  /** `SessionUpdate` keeps a state without orphans free of them, and seen through its ids
      it is `Memory.Update`. */
  lemma UpdateAgrees<K, V>(p: Provider<K, V>, sid: string, now: int)
    requires Wf(p) && Whole(p)
    ensures Wf(Update(p, sid, now)) && Whole(Update(p, sid, now))
    ensures Abs(Update(p, sid, now)) == Memory.Update(Abs(p), sid, now)
  {
    UpdateKeepsWhole(p, sid, now);
    if sid in p.index {
      UpdateIds(p, sid, now);
      UpdateStores(p, sid, now);
    }
  }

  /** Dropping the back element drops the last id. */
  lemma DropBackIds<K, V>(p: Provider<K, V>, q: Provider<K, V>)
    requires Listed(p) && |p.list| > 0 && q.heap == p.heap && q.list == p.list[..|p.list| - 1]
    ensures Listed(q) && Ids(q) == Ids(p)[..|p.list| - 1]
  {
    forall t | t in q.list ensures t in q.heap {
      var j :| 0 <= j < |q.list| && q.list[j] == t;
      assert p.list[j] in p.list;
    }
  }

  /** Dropping the back element and the index entry of its id creates no orphan. */
  lemma DropBackKeepsWhole<K, V>(p: Provider<K, V>)
    requires Wf(p) && Whole(p) && |p.list| > 0
    ensures var back := p.list[|p.list| - 1];
      var q := Provider(p.index - {p.heap[back].sid}, p.heap, p.list[..|p.list| - 1], p.next);
      Wf(q) && Whole(q)
  {
    var back := p.list[|p.list| - 1];
    var q := Provider(p.index - {p.heap[back].sid}, p.heap, p.list[..|p.list| - 1], p.next);
    DropBackKeepsWf(p);
    assert back in p.list;
    forall u | u in q.list ensures q.heap[u].sid in q.index && q.index[q.heap[u].sid] == u {
      var j :| 0 <= j < |q.list| && q.list[j] == u;
      assert u == p.list[j] && u in p.list;
      assert u != back;
    }
  }

  /** One round of the sweep keeps a state without orphans free of them, and seen through
      its ids it is one round of `Memory.GC`. */
  lemma DropBackAgrees<K, V>(p: Provider<K, V>)
    requires Wf(p) && Whole(p) && |p.list| > 0
    ensures var back := p.list[|p.list| - 1];
      var q := Provider(p.index - {p.heap[back].sid}, p.heap, p.list[..|p.list| - 1], p.next);
      var a := Abs(p);
      && Wf(q) && Whole(q)
      && a.order[|a.order| - 1] == p.heap[back].sid
      && a.sessions[p.heap[back].sid] == p.heap[back]
      && Abs(q) == Memory.Provider(a.sessions - {p.heap[back].sid}, a.order[..|a.order| - 1])
  {
    var back := p.list[|p.list| - 1];
    var q := Provider(p.index - {p.heap[back].sid}, p.heap, p.list[..|p.list| - 1], p.next);
    DropBackKeepsWhole(p);
    DropBackIds(p, q);
    assert back in p.list;
    assert Stores(q) == Stores(p) - {p.heap[back].sid};
  }

  /** `SessionGC` keeps a state without orphans free of them, and seen through its ids it
      is `Memory.GC`. */
  lemma {:induction false} GCAgrees<K, V>(p: Provider<K, V>, maxlifetime: int, now: int)
    requires Wf(p) && Whole(p)
    ensures Wf(GC(p, maxlifetime, now)) && Whole(GC(p, maxlifetime, now))
    ensures Abs(GC(p, maxlifetime, now)) == Memory.GC(Abs(p), maxlifetime, now)
    decreases |p.list|
  {
    if |p.list| > 0 {
      var back := p.list[|p.list| - 1];
      var q := Provider(p.index - {p.heap[back].sid}, p.heap, p.list[..|p.list| - 1], p.next);
      DropBackAgrees(p);
      var a := Abs(p);
      var b := Memory.Provider(a.sessions - {p.heap[back].sid}, a.order[..|a.order| - 1]);
      if Memory.Expired(p.heap[back], maxlifetime, now) {
        GCAgrees(q, maxlifetime, now);
        assert GC(p, maxlifetime, now) == GC(q, maxlifetime, now);
        assert Memory.GC(a, maxlifetime, now) == Memory.GC(b, maxlifetime, now);
      } else {
        assert GC(p, maxlifetime, now) == p;
        assert Memory.GC(a, maxlifetime, now) == a;
      }
    }
  }
}

=== FILE: frontinsert.dfy ===
/** The provider with `SessionInit` inserting at the front, as the recency discipline
    intends: every call then keeps the list ordered, so every GC pass is complete. */
module FrontInsert {
  import opened Store
  import opened Memory
  import opened Invariants
  import opened Recency

  /** The provider's state after `op` at time `now`, with `SessionInit` (also the one a
      `SessionRead` of an unknown id makes) inserting at the front. */
  function StepFront<K(!new), V>(p: Provider<K, V>, op: Op<K, V>, now: int): Provider<K, V>
  {
    match op
    case OpInit(sid) => InitFront(p, sid, now).provider
    case OpRead(sid) => if sid in p.sessions then p else InitFront(p, sid, now).provider
    case _ => Step(p, op, now)
  }

  /** The provider's state after the calls in `ops`, in order. */
  function RunFront<K(!new), V>(p: Provider<K, V>, ops: seq<Timed<K, V>>): Provider<K, V>
    decreases |ops|
  {
    if |ops| == 0 then p else RunFront(StepFront(p, ops[0].op, ops[0].now), ops[1..])
  }

  /** Every `SessionInit` in `ops` is given an id that is not indexed at that point. */
  predicate FreshInitsFront<K(!new), V>(p: Provider<K, V>, ops: seq<Timed<K, V>>)
    decreases |ops|
  {
    |ops| == 0 || (InitIsFresh(p, ops[0].op) && FreshInitsFront(StepFront(p, ops[0].op, ops[0].now), ops[1..]))
  }

  /** The clock never goes backwards: the calls come at times `t` or later, in order. */
  predicate ClockFrom<K, V>(t: int, ops: seq<Timed<K, V>>)
    decreases |ops|
  {
    |ops| == 0 || (t <= ops[0].now && ClockFrom(ops[0].now, ops[1..]))
  }

  /** Every call keeps index and list consistent and the list ordered, given a clock that
      has not gone backwards and a fresh id for `SessionInit`. */
  lemma StepFrontKeepsOrdered<K(!new), V>(p: Provider<K, V>, op: Op<K, V>, now: int)
    requires Valid(p) && Ordered(p) && NotAfter(p, now) && InitIsFresh(p, op)
    ensures var q := StepFront(p, op, now);
      Valid(q) && Ordered(q) && NotAfter(q, now)
  {
    match op
    case OpInit(sid) =>
      InitFrontFreshKeepsValid(p, sid, now);
      InitFrontKeepsOrdered(p, sid, now);
    case OpRead(sid) =>
      if sid !in p.sessions {
        InitFrontFreshKeepsValid(p, sid, now);
        InitFrontKeepsOrdered(p, sid, now);
      }
    case _ =>
      StepKeepsValid(p, op, now);
      StepKeepsOrdered(p, op, now);
  }

  /** Over a whole run with a clock that never goes backwards and fresh `SessionInit` ids,
      index and list stay consistent and the list stays ordered. */
  lemma {:induction false} RunFrontKeepsOrdered<K(!new), V>(p: Provider<K, V>, t: int, ops: seq<Timed<K, V>>)
    requires Valid(p) && Ordered(p) && NotAfter(p, t)
    requires ClockFrom(t, ops) && FreshInitsFront(p, ops)
    ensures Valid(RunFront(p, ops)) && Ordered(RunFront(p, ops))
    decreases |ops|
  {
    if |ops| > 0 {
      var now := ops[0].now;
      StepFrontKeepsOrdered(p, ops[0].op, now);
      RunFrontKeepsOrdered(StepFront(p, ops[0].op, now), now, ops[1..]);
    }
  }

  /** Hence, after any such run from the empty provider, a GC pass leaves no expired
      session behind. */
  lemma RunFrontThenGCComplete<K(!new), V>(ops: seq<Timed<K, V>>, t: int, maxlifetime: int, now: int)
    requires ClockFrom(t, ops) && FreshInitsFront(Empty<K, V>(), ops)
    ensures var q := GC(RunFront(Empty<K, V>(), ops), maxlifetime, now);
      forall s :: s in q.sessions ==> !Expired(q.sessions[s], maxlifetime, now)
  {
    RunFrontKeepsOrdered(Empty<K, V>(), t, ops);
    GCClearsExpired(RunFront(Empty<K, V>(), ops), maxlifetime, now);
  }
}

=== FILE: invariants.dfy ===
/** The index/list consistency of the in-memory provider, operation by operation, and the
    laws relating its operations to each other. */
module Invariants {
  import opened Wrappers
  import opened Seqs
  import opened Store
  import opened Memory

  /** `SessionInit` with an id that is not yet indexed keeps index and list consistent. */
  lemma InitFreshKeepsValid<K, V>(p: Provider<K, V>, sid: string, now: int)
    requires Valid(p) && sid !in p.sessions
    ensures Valid(Init(p, sid, now).provider)
  {
    var q := Init(p, sid, now).provider;
    assert q.order == p.order + [sid];
    NoDupSnoc(p.order, sid);
  }

  /** The front-inserting `SessionInit` of a fresh id keeps index and list consistent too. */
  lemma InitFrontFreshKeepsValid<K, V>(p: Provider<K, V>, sid: string, now: int)
    requires Valid(p) && sid !in p.sessions
    ensures Valid(InitFront(p, sid, now).provider)
  {
    var q := InitFront(p, sid, now).provider;
    assert q.order == [sid] + p.order;
    NoDupCons(p.order, sid);
  }

  /** `SessionInit` with an id that is already indexed leaves the old list entry behind: the
      id is in the list twice while the index only reaches the new store. */
  lemma InitExistingOrphans<K, V>(p: Provider<K, V>, sid: string, now: int)
    requires Valid(p) && sid in p.sessions
    ensures var q := Init(p, sid, now).provider;
      && sid in q.order[..|p.order|] && q.order[|p.order|] == sid
      && !NoDup(q.order) && !Valid(q)
  {
    var q := Init(p, sid, now).provider;
    assert sid in p.order;
    var i :| 0 <= i < |p.order| && p.order[i] == sid;
    assert q.order[..|p.order|] == p.order;
    assert q.order[i] == sid && q.order[|p.order|] == sid;
  }

  /** `SessionRead` keeps index and list consistent: it either changes nothing or
      initialises an id that was not indexed. */
  lemma ReadKeepsValid<K, V>(p: Provider<K, V>, sid: string, now: int)
    requires Valid(p)
    ensures Valid(Read(p, sid, now).provider)
  {
    if sid !in p.sessions {
      InitFreshKeepsValid(p, sid, now);
    }
  }

  /** A second `SessionRead` of the same id returns the store the first one returned and
      changes nothing, whether the first one found the id or created it. */
  lemma ReadTwice<K, V>(p: Provider<K, V>, sid: string, now1: int, now2: int)
    ensures var a := Read(p, sid, now1);
      Read(a.provider, sid, now2) == Reply(a.value, a.provider)
  {
  }

  /** `SessionDestroy` keeps index and list consistent. */
  lemma DestroyKeepsValid<K, V>(p: Provider<K, V>, sid: string)
    requires Valid(p)
    ensures Valid(Destroy(p, sid))
  {
    if sid in p.sessions {
      var q := Destroy(p, sid);
      WithoutNoDup(p.order, sid);
      forall s | s in q.sessions ensures s in q.order {
        WithoutKeeps(p.order, sid, s);
      }
      forall i | 0 <= i < |q.order| ensures q.order[i] in q.sessions {
        assert q.order[i] in q.order;
      }
    }
  }

  /** `SessionDestroy` of an indexed id removes exactly its list entry; the entries before
      and after it keep their relative order. */
  lemma DestroyKeepsRelativeOrder<K, V>(p: Provider<K, V>, sid: string, i: int)
    requires Valid(p) && 0 <= i < |p.order| && p.order[i] == sid
    ensures Destroy(p, sid).order == p.order[..i] + p.order[i + 1..]
  {
    WithoutAt(p.order, i);
  }

  /** Destroying twice is destroying once. */
  lemma DestroyIdempotent<K, V>(p: Provider<K, V>, sid: string)
    ensures Destroy(Destroy(p, sid), sid) == Destroy(p, sid)
  {
  }

  /** `SessionUpdate` keeps index and list consistent. */
  lemma UpdateKeepsValid<K, V>(p: Provider<K, V>, sid: string, now: int)
    requires Valid(p)
    ensures Valid(Update(p, sid, now))
  {
    if sid in p.sessions {
      var q := Update(p, sid, now);
      var w := Without(p.order, sid);
      WithoutNoDup(p.order, sid);
      assert q.order == [sid] + w;
      forall i, j | 0 <= i < j < |q.order| ensures q.order[i] != q.order[j] {
        if i == 0 {
          assert q.order[j] == w[j - 1];
        } else {
          assert q.order[i] == w[i - 1] && q.order[j] == w[j - 1];
        }
      }
      forall s | s in q.sessions ensures s in q.order {
        if s != sid {
          WithoutKeeps(p.order, sid, s);
        }
      }
      forall i | 0 <= i < |q.order| ensures q.order[i] in q.sessions {
        if i > 0 {
          assert q.order[i] == w[i - 1] && w[i - 1] in w;
        }
      }
    }
  }

  /** `SessionUpdate` of an indexed id moves its entry from position `i` to the front; the
      other entries keep their relative order. */
  lemma UpdateMovesToFront<K, V>(p: Provider<K, V>, sid: string, i: int, now: int)
    requires Valid(p) && 0 <= i < |p.order| && p.order[i] == sid
    ensures Update(p, sid, now).order == [sid] + p.order[..i] + p.order[i + 1..]
  {
    WithoutAt(p.order, i);
  }

  /** Rewriting the values of an indexed store changes neither index nor list. */
  lemma ValuesKeepValid<K, V>(p: Provider<K, V>, sid: string, st: SessionStore<K, V>)
    requires Valid(p) && sid in p.sessions && st.sid == sid
    ensures Valid(p.(sessions := p.sessions[sid := st]))
  {
  }

  /** `Set` keeps index and list consistent. */
  lemma SetKeepsValid<K(!new), V>(p: Provider<K, V>, sid: string, key: K, value: V, now: int)
    requires Valid(p)
    ensures Valid(Set(p, sid, key, value, now))
  {
    if sid in p.sessions {
      var p1 := p.(sessions := p.sessions[sid := Put(p.sessions[sid], key, value)]);
      ValuesKeepValid(p, sid, p1.sessions[sid]);
      UpdateKeepsValid(p1, sid, now);
    }
  }

  /** `Get` keeps index and list consistent. */
  lemma GetKeepsValid<K, V>(p: Provider<K, V>, sid: string, key: K, now: int)
    requires Valid(p)
    ensures Valid(Get(p, sid, key, now).provider)
  {
    UpdateKeepsValid(p, sid, now);
  }

  /** `Delete` keeps index and list consistent. */
  lemma DeleteKeepsValid<K(!new), V>(p: Provider<K, V>, sid: string, key: K, now: int)
    requires Valid(p)
    ensures Valid(Delete(p, sid, key, now))
  {
    if sid in p.sessions {
      var p1 := p.(sessions := p.sessions[sid := Drop(p.sessions[sid], key)]);
      ValuesKeepValid(p, sid, p1.sessions[sid]);
      UpdateKeepsValid(p1, sid, now);
    }
  }

  /** One round of the GC loop keeps index and list consistent. */
  lemma DropBackKeepsValid<K, V>(p: Provider<K, V>)
    requires Valid(p) && |p.order| > 0
    ensures var back := p.order[|p.order| - 1];
      Valid(Provider(p.sessions - {back}, p.order[..|p.order| - 1]))
  {
    var n := |p.order|;
    var back := p.order[n - 1];
    var q := Provider(p.sessions - {back}, p.order[..n - 1]);
    forall s | s in q.sessions ensures s in q.order {
      var i :| 0 <= i < n && p.order[i] == s;
      assert i != n - 1;
      assert q.order[i] == s;
    }
    forall i | 0 <= i < |q.order| ensures q.order[i] in q.sessions {
      assert q.order[i] == p.order[i];
    }
  }

  /** `SessionGC` keeps index and list consistent. */
  lemma {:induction false} GCKeepsValid<K, V>(p: Provider<K, V>, maxlifetime: int, now: int)
    requires Valid(p)
    ensures Valid(GC(p, maxlifetime, now))
    decreases |p.order|
  {
    if |p.order| > 0 {
      var back := p.order[|p.order| - 1];
      if back in p.sessions && Expired(p.sessions[back], maxlifetime, now) {
        DropBackKeepsValid(p);
        GCKeepsValid(Provider(p.sessions - {back}, p.order[..|p.order| - 1]), maxlifetime, now);
      }
    }
  }

  /** A second sweep with the same clock and lifetime finds nothing more to remove. */
  lemma GCIdempotent<K, V>(p: Provider<K, V>, maxlifetime: int, now: int)
    ensures var q := GC(p, maxlifetime, now);
      GC(q, maxlifetime, now) == q
  {
  }

  /** `Set` then `Get` of the same key yields the value set. */
  lemma SetThenGet<K(!new), V>(p: Provider<K, V>, sid: string, key: K, value: V, now1: int, now2: int)
    requires sid in p.sessions
    ensures Get(Set(p, sid, key, value, now1), sid, key, now2).value == Some(value)
  {
  }

  /** `Delete` then `Get` of the same key yields nothing. */
  lemma DeleteThenGet<K(!new), V>(p: Provider<K, V>, sid: string, key: K, now1: int, now2: int)
    ensures Get(Delete(p, sid, key, now1), sid, key, now2).value == None
  {
  }

  /** `Get` of a key that was never set yields nothing, and still refreshes the session. */
  lemma GetUnset<K, V>(p: Provider<K, V>, sid: string, key: K, now: int)
    requires sid in p.sessions && key !in p.sessions[sid].values
    ensures Get(p, sid, key, now).value == None
    ensures Get(p, sid, key, now).provider.sessions[sid].timeAccessed == now
  {
  }

  /** What `Get` does to the list: the accessed id goes to the front, the index keeps its ids. */
  lemma GetReorders<K, V>(p: Provider<K, V>, sid: string, key: K, now: int)
    requires sid in p.sessions
    ensures var q := Get(p, sid, key, now).provider;
      q.order == [sid] + Without(p.order, sid) && forall s :: s in q.sessions <==> s in p.sessions
  {
  }

  /** What `Set` does to the list: the accessed id goes to the front, the index keeps its ids. */
  lemma SetReorders<K(!new), V>(p: Provider<K, V>, sid: string, key: K, value: V, now: int)
    requires sid in p.sessions
    ensures var q := Set(p, sid, key, value, now);
      q.order == [sid] + Without(p.order, sid) && forall s :: s in q.sessions <==> s in p.sessions
  {
  }

  /** Any single call a client can make on the provider. */
  datatype Op<K, V> =
    | OpInit(sid: string)
    | OpRead(sid: string)
    | OpDestroy(sid: string)
    | OpUpdate(sid: string)
    | OpGC(maxlifetime: int)
    | OpSet(sid: string, key: K, value: V)
    | OpGet(sid: string, key: K)
    | OpDelete(sid: string, key: K)

  /** The provider's state after `op` at time `now`. */
  function Step<K(!new), V>(p: Provider<K, V>, op: Op<K, V>, now: int): Provider<K, V>
  {
    match op
    case OpInit(sid) => Init(p, sid, now).provider
    case OpRead(sid) => Read(p, sid, now).provider
    case OpDestroy(sid) => Destroy(p, sid)
    case OpUpdate(sid) => Update(p, sid, now)
    case OpGC(maxlifetime) => GC(p, maxlifetime, now)
    case OpSet(sid, key, value) => Set(p, sid, key, value, now)
    case OpGet(sid, key) => Get(p, sid, key, now).provider
    case OpDelete(sid, key) => Delete(p, sid, key, now)
  }

  /** The calling discipline `SessionInit` relies on: it is only given ids not yet indexed. */
  predicate InitIsFresh<K, V>(p: Provider<K, V>, op: Op<K, V>)
  {
    op.OpInit? ==> op.sid !in p.sessions
  }

  /** A call made at a given time. */
  datatype Timed<K, V> = Timed(op: Op<K, V>, now: int)

  /** The provider's state after the calls in `ops`, in order. */
  function Run<K(!new), V>(p: Provider<K, V>, ops: seq<Timed<K, V>>): Provider<K, V>
    decreases |ops|
  {
    if |ops| == 0 then p else Run(Step(p, ops[0].op, ops[0].now), ops[1..])
  }

  /** Every `SessionInit` in `ops` is given an id that is not indexed at that point. */
  predicate FreshInits<K(!new), V>(p: Provider<K, V>, ops: seq<Timed<K, V>>)
    decreases |ops|
  {
    |ops| == 0 || (InitIsFresh(p, ops[0].op) && FreshInits(Step(p, ops[0].op, ops[0].now), ops[1..]))
  }

  /** Every call keeps index and list consistent, given fresh ids for `SessionInit`. */
  lemma StepKeepsValid<K(!new), V>(p: Provider<K, V>, op: Op<K, V>, now: int)
    requires Valid(p) && InitIsFresh(p, op)
    ensures Valid(Step(p, op, now))
  {
    match op
    case OpInit(sid) => InitFreshKeepsValid(p, sid, now);
    case OpRead(sid) => ReadKeepsValid(p, sid, now);
    case OpDestroy(sid) => DestroyKeepsValid(p, sid);
    case OpUpdate(sid) => UpdateKeepsValid(p, sid, now);
    case OpGC(maxlifetime) => GCKeepsValid(p, maxlifetime, now);
    case OpSet(sid, key, value) => SetKeepsValid(p, sid, key, value, now);
    case OpGet(sid, key) => GetKeepsValid(p, sid, key, now);
    case OpDelete(sid, key) => DeleteKeepsValid(p, sid, key, now);
  }

  /** From the empty provider, any run with fresh `SessionInit` ids keeps index and list
      consistent, so the store indexed under an id always reports that id as its
      `SessionID`: no operation changes a store's id. */
  lemma {:induction false} RunKeepsValid<K(!new), V>(p: Provider<K, V>, ops: seq<Timed<K, V>>)
    requires Valid(p) && FreshInits(p, ops)
    ensures Valid(Run(p, ops))
    ensures forall s :: s in Run(p, ops).sessions ==> SessionID(Run(p, ops).sessions[s]) == s
    decreases |ops|
  {
    if |ops| > 0 {
      StepKeepsValid(p, ops[0].op, ops[0].now);
      RunKeepsValid(Step(p, ops[0].op, ops[0].now), ops[1..]);
    }
  }
}

=== FILE: lifecycle.dfy ===
/** The manager driving the in-memory provider: `SessionStart`, `SessionDestroy` and one
    `GC` pass of session/session.go carried out on the state of memory/memory.go. */
module Lifecycle {
  import opened Wrappers
  import opened Store
  import opened Memory
  import opened Invariants
  import opened Recency
  import opened Session

  /** What `SessionStart` returns, the provider's next state and the cookie written back. */
  datatype Started<K, V> = Started(store: SessionStore<K, V>, provider: Provider<K, V>, cookie: Option<Cookie>)

  /** What `SessionDestroy` leaves: the provider's next state and the cookie written back. */
  datatype Stopped<K, V> = Stopped(provider: Provider<K, V>, cookie: Option<Cookie>)

  /** `SessionStart` on the in-memory provider; `sid` is what `sessionId` generated. */
  function SessionStart<P, K, V>(m: Manager<P>, state: Provider<K, V>, cookie: Option<string>,
                                 sid: string, now: int, codec: QueryCodec): (r: Started<K, V>)
    ensures !HasCookie(cookie) ==>
      && r.store.sid == sid && r.store.timeAccessed == now && r.store.values == map[]
      && r.provider == Init(state, sid, now).provider
      && r.cookie == Some(Cookie(m.cookieName, codec.escape(sid), "/", true, m.maxlifetime, false))
    ensures HasCookie(cookie) ==>
      && Reply(r.store, r.provider) == Read(state, Unescape(codec, cookie.value), now)
      && r.cookie == None
  {
    var plan := StartPlan(m, cookie, sid, codec);
    var reply := if plan.call.CallInit? then Init(state, plan.call.sid, now) else Read(state, plan.call.sid, now);
    Started(reply.value, reply.provider, plan.cookie)
  }

  /** `SessionDestroy` on the in-memory provider. */
  function SessionDestroy<P, K, V>(m: Manager<P>, state: Provider<K, V>, cookie: Option<string>): (r: Stopped<K, V>)
    ensures !HasCookie(cookie) ==> r == Stopped(state, None)
    ensures HasCookie(cookie) ==>
      && r.provider == Destroy(state, cookie.value)
      && r.cookie == Some(Cookie(m.cookieName, "", "/", true, -1, true))
  {
    var plan := DestroyPlan(m, cookie);
    match plan.call
    case CallDestroy(raw) => Stopped(Destroy(state, raw), plan.cookie)
    case _ => Stopped(state, plan.cookie)
  }

  /** `SessionDestroy` as logging out intends it: the cookie value is unescaped, as
      `SessionStart` does, before the provider is asked to destroy that session. */
  function SessionDestroyUnescaped<P, K, V>(m: Manager<P>, state: Provider<K, V>, cookie: Option<string>,
                                            codec: QueryCodec): (r: Stopped<K, V>)
    ensures !HasCookie(cookie) ==> r == Stopped(state, None)
    ensures HasCookie(cookie) ==>
      && r.provider == Destroy(state, Unescape(codec, cookie.value))
      && r.cookie == Some(Cookie(m.cookieName, "", "/", true, -1, true))
  {
    if !HasCookie(cookie) then Stopped(state, None)
    else Stopped(Destroy(state, Unescape(codec, cookie.value)), Some(Cookie(m.cookieName, "", "/", true, -1, true)))
  }

  /** One pass of the manager's `GC`: a sweep with the manager's lifetime. Survivors are a
      prefix of the list, and every session swept was idle longer than the lifetime. */
  function RunGC<P, K, V>(m: Manager<P>, state: Provider<K, V>, now: int): (r: Provider<K, V>)
    ensures |r.order| <= |state.order| && r.order == state.order[..|r.order|]
    ensures forall i :: |r.order| <= i < |state.order| ==>
      state.order[i] in state.sessions && Expired(state.sessions[state.order[i]], m.maxlifetime, now)
  {
    GC(state, m.maxlifetime, now)
  }

  /** `SessionStart` keeps index and list consistent, provided a generated id is not in use
      already; the store it returns is the one the provider now holds under its id. */
  lemma StartKeepsValid<P, K, V>(m: Manager<P>, state: Provider<K, V>, cookie: Option<string>,
                                 sid: string, now: int, codec: QueryCodec)
    requires Valid(state)
    requires !HasCookie(cookie) ==> sid !in state.sessions
    ensures var r := SessionStart(m, state, cookie, sid, now, codec);
      Valid(r.provider) && r.store.sid in r.provider.sessions && r.provider.sessions[r.store.sid] == r.store
  {
    if HasCookie(cookie) {
      ReadKeepsValid(state, Unescape(codec, cookie.value), now);
    } else {
      InitFreshKeepsValid(state, sid, now);
    }
  }

  /** Two `SessionStart`s with the same non-empty cookie return the same store, and the
      second one changes nothing and writes no cookie. */
  lemma StartTwiceSameStore<P, K, V>(m: Manager<P>, state: Provider<K, V>, v: string,
                                     sid1: string, sid2: string, now1: int, now2: int, codec: QueryCodec)
    requires v != ""
    ensures var a := SessionStart(m, state, Some(v), sid1, now1, codec);
      var b := SessionStart(m, a.provider, Some(v), sid2, now2, codec);
      b == Started(a.store, a.provider, None)
  {
    ReadTwice(state, Unescape(codec, v), now1, now2);
  }

  /** A session started without a cookie is found again through the cookie it issued:
      the next `SessionStart` returns the same, still empty, store and changes nothing. */
  lemma NewSessionResumes<P, K, V>(m: Manager<P>, state: Provider<K, V>, sid: string, next: string,
                                   now1: int, now2: int, codec: QueryCodec)
    requires RoundTrips(codec) && codec.escape(sid) != ""
    ensures var a := SessionStart(m, state, None, sid, now1, codec);
      && a.cookie.Some?
      && var b := SessionStart(m, a.provider, Some(a.cookie.value.value), next, now2, codec);
      && b == Started(a.store, a.provider, None)
      && b.store.values == map[]
  {
    var v := codec.escape(sid);
    assert Unescape(codec, v) == sid;
  }

  /** Because `SessionDestroy` uses the raw cookie while `SessionStart` escaped the id into
      it, destroying with the issued cookie removes the session exactly when escaping left
      the id unchanged; otherwise the session stays until GC sweeps it. */
  lemma DestroyWithIssuedCookie<P, K, V>(m: Manager<P>, state: Provider<K, V>, sid: string,
                                         now: int, codec: QueryCodec)
    requires codec.escape(sid) != ""
    ensures var a := SessionStart(m, state, None, sid, now, codec);
      var c := SessionDestroy(m, a.provider, Some(codec.escape(sid)));
      sid in c.provider.sessions <==> codec.escape(sid) != sid
  {
  }

  /** With the unescaping destroy, logging out with the cookie `SessionStart` issued removes
      the session it created, whatever escaping does to the id, and keeps the provider
      consistent; the next `SessionStart` with that cookie finds an empty store. */
  lemma LogoutRemovesSession<P, K, V>(m: Manager<P>, state: Provider<K, V>, sid: string,
                                      next: string, now1: int, now2: int, codec: QueryCodec)
    requires Valid(state) && sid !in state.sessions
    requires RoundTrips(codec) && codec.escape(sid) != ""
    ensures var a := SessionStart(m, state, None, sid, now1, codec);
      var c := SessionDestroyUnescaped(m, a.provider, Some(codec.escape(sid)), codec);
      var d := SessionStart(m, c.provider, Some(codec.escape(sid)), next, now2, codec);
      && sid !in c.provider.sessions
      && Valid(c.provider)
      && d.store == SessionStore(sid, now2, map[])
  {
    var a := SessionStart(m, state, None, sid, now1, codec);
    StartKeepsValid(m, state, None, sid, now1, codec);
    assert Unescape(codec, codec.escape(sid)) == sid;
    DestroyKeepsValid(a.provider, sid);
  }

  /** Destroying a session and then presenting the same cookie again (one that unescapes
      to itself) yields a brand-new, empty session under that id: the old data is gone. */
  lemma DestroyThenStartIsFresh<P, K, V>(m: Manager<P>, state: Provider<K, V>, v: string,
                                         sid: string, now: int, codec: QueryCodec)
    requires v != "" && codec.unescape(v) == Some(v)
    ensures var c := SessionDestroy(m, state, Some(v));
      var d := SessionStart(m, c.provider, Some(v), sid, now, codec);
      && d.store == SessionStore(v, now, map[])
      && d.provider.sessions[v] == d.store
      && d.cookie == None
  {
    var c := SessionDestroy(m, state, Some(v));
    assert v !in c.provider.sessions;
  }

  /** When reading randomness fails, `SessionStart` without a cookie creates a session
      under the empty id. */
  lemma StartWithFailedRandom<P, K, V>(m: Manager<P>, state: Provider<K, V>, encode: seq<bv8> -> string,
                                       now: int, codec: QueryCodec)
    ensures var a := SessionStart(m, state, None, SessionId(ReadFailed, encode), now, codec);
      a.store.sid == "" && "" in a.provider.sessions && a.provider.order[|a.provider.order| - 1] == ""
  {
  }

  /** On an ordered list, one GC pass leaves only sessions that are still live. */
  lemma RunGCLeavesLive<P, K, V>(m: Manager<P>, state: Provider<K, V>, now: int)
    requires Valid(state) && Ordered(state)
    ensures var r := RunGC(m, state, now);
      Valid(r) && forall s :: s in r.sessions ==> !Expired(r.sessions[s], m.maxlifetime, now)
  {
    var r := RunGC(m, state, now);
    assert r == GC(state, m.maxlifetime, now);
    GCKeepsValid(state, m.maxlifetime, now);
    GCClearsExpired(state, m.maxlifetime, now);
  }
}

=== FILE: linked.dfy ===
/** The provider of memory/memory.go at the level of its list elements. The index maps an id
    to one element (Go's `*list.Element`), each element holds its own store, and the list
    orders elements. Unlike `Memory`, this level tells apart two elements that carry the same
    id, so it shows what becomes of the element a duplicate `SessionInit` leaves behind. */
module Linked {
  import opened Wrappers
  import opened Seqs
  import opened Store
  import Memory

  /** `index` maps an id to the handle of its element; `heap` maps every handle ever created
      to the store its element holds (a removed element keeps its store, as in Go); `list`
      holds handles from front to back; `next` is the next unused handle. */
  datatype Provider<K, V> = Provider(index: map<string, nat>, heap: map<nat, SessionStore<K, V>>,
                                     list: seq<nat>, next: nat)

  /** A store handed back to the caller, with the provider's next state. */
  datatype Reply<K, V> = Reply(store: SessionStore<K, V>, provider: Provider<K, V>)

  /** Every listed handle has an element. */
  ghost predicate Listed<K, V>(p: Provider<K, V>)
  {
    forall t :: t in p.list ==> t in p.heap
  }

  /** The shape every reachable state has: handles are used once, each listed handle has an
      element, and each indexed id points to a listed element carrying that id. Elements
      carrying an id that points elsewhere (orphans) are allowed. */
  ghost predicate Wf<K, V>(p: Provider<K, V>)
  {
    && NoDup(p.list)
    && (forall t :: t in p.heap ==> t < p.next)
    && Listed(p)
    && (forall s :: s in p.index ==> p.index[s] in p.list && p.heap[p.index[s]].sid == s)
  }

  /** No orphans: every listed element is the one its id is indexed to. */
  ghost predicate Whole<K, V>(p: Provider<K, V>)
    requires Listed(p)
  {
    forall t :: t in p.list ==> p.heap[t].sid in p.index && p.index[p.heap[t].sid] == t
  }

  /** The provider as the package creates it. */
  function Empty<K, V>(): (p: Provider<K, V>)
    ensures Wf(p) && Whole(p) && |p.index| == 0 && |p.list| == 0
  {
    Provider(map[], map[], [], 0)
  }

  /** `SessionInit`: a new element holding an empty store stamped `now` is pushed at the
      back, and `sid` is indexed to it; an element `sid` was indexed to before stays listed. */
  function Init<K, V>(p: Provider<K, V>, sid: string, now: int): (r: Reply<K, V>)
    ensures r.store.sid == sid && r.store.timeAccessed == now && r.store.values == map[]
    ensures r.provider.list == p.list + [p.next] && r.provider.next == p.next + 1
    ensures sid in r.provider.index && r.provider.index[sid] == p.next
    ensures forall s :: s != sid ==> (s in r.provider.index <==> s in p.index)
    ensures forall s :: s in p.index && s != sid ==> r.provider.index[s] == p.index[s]
    ensures p.next in r.provider.heap && r.provider.heap[p.next] == r.store
    ensures forall t :: t in p.heap && t != p.next ==> t in r.provider.heap && r.provider.heap[t] == p.heap[t]
  {
    var st := NewStore(sid, now);
    Reply(st, Provider(p.index[sid := p.next], p.heap[p.next := st], p.list + [p.next], p.next + 1))
  }

  /** `SessionRead`: the store of the indexed element, state untouched; an unknown id is
      handed to `Init`. */
  function Read<K, V>(p: Provider<K, V>, sid: string, now: int): (r: Reply<K, V>)
    requires Wf(p)
    ensures sid in p.index ==> r.store == p.heap[p.index[sid]] && r.provider == p
    ensures sid !in p.index ==> r == Init(p, sid, now)
    ensures r.store.sid == sid
  {
    if sid in p.index then Reply(p.heap[p.index[sid]], p) else Init(p, sid, now)
  }

  /** `SessionDestroy`: the indexed element leaves the list and the id leaves the index. */
  function Destroy<K, V>(p: Provider<K, V>, sid: string): (r: Provider<K, V>)
    ensures sid !in r.index
    ensures forall s :: s in r.index <==> s in p.index && s != sid
    ensures forall s :: s in r.index ==> r.index[s] == p.index[s]
    ensures sid in p.index ==> p.index[sid] !in r.list
    ensures forall t :: t in r.list ==> t in p.list
    ensures r.heap == p.heap && r.next == p.next
    ensures sid !in p.index ==> r == p
  {
    if sid in p.index then Provider(p.index - {sid}, p.heap, Without(p.list, p.index[sid]), p.next) else p
  }

  /** `SessionUpdate`: the indexed element's store is stamped `now` and the element moves
      to the front; every other element stays where it was relative to the rest. */
  function Update<K, V>(p: Provider<K, V>, sid: string, now: int): (r: Provider<K, V>)
    requires Wf(p)
    ensures r.index == p.index && r.next == p.next
    ensures sid !in p.index ==> r == p
    ensures sid in p.index ==>
      var t := p.index[sid];
      && t in r.heap && r.heap[t] == p.heap[t].(timeAccessed := now)
      && |r.list| > 0 && r.list[0] == t && r.list[1..] == Without(p.list, t)
    ensures forall t :: t in p.heap ==> t in r.heap
    ensures forall t :: t in p.heap && (sid !in p.index || t != p.index[sid]) ==> r.heap[t] == p.heap[t]
  {
    if sid in p.index then
      var t := p.index[sid];
      Provider(p.index, p.heap[t := p.heap[t].(timeAccessed := now)], [t] + Without(p.list, t), p.next)
    else p
  }

  /** `SessionGC`: while the element at the back is expired by its own store, it leaves the
      list and `delete(pder.sessions, sid)` drops the index entry of the id it carries,
      whichever element that entry points to. */
  function GC<K, V>(p: Provider<K, V>, maxlifetime: int, now: int): (r: Provider<K, V>)
    requires Listed(p)
    ensures |r.list| <= |p.list| && r.list == p.list[..|r.list|]
    ensures r.heap == p.heap && r.next == p.next
    ensures forall i :: |r.list| <= i < |p.list| ==> Memory.Expired(p.heap[p.list[i]], maxlifetime, now)
    ensures |r.list| > 0 ==> !Memory.Expired(p.heap[r.list[|r.list| - 1]], maxlifetime, now)
    ensures forall s :: s in r.index ==> s in p.index && r.index[s] == p.index[s]
    decreases |p.list|
  {
    if |p.list| == 0 then p
    else
      var back := p.list[|p.list| - 1];
      if Memory.Expired(p.heap[back], maxlifetime, now) then
        var q := Provider(p.index - {p.heap[back].sid}, p.heap, p.list[..|p.list| - 1], p.next);
        var r := GC(q, maxlifetime, now);
        assert r.list == p.list[..|r.list|] by {
          assert q.list[..|r.list|] == p.list[..|r.list|];
        }
        assert forall i :: |r.list| <= i < |q.list| ==> q.list[i] == p.list[i];
        r
      else p
  }
}

=== FILE: memory.dfy ===
/** The in-memory session provider of memory/memory.go: an index from session id to
    store and a recency list of session ids, front (index 0) to back. */
module Memory {
  import opened Wrappers
  import opened Seqs
  import opened Store

  /** `sessions` is the Go `sessions` map (its list elements replaced by the stores they
      hold); `order` is the `container/list` of stores, written as the ids in list order. */
  datatype Provider<K, V> = Provider(sessions: map<string, SessionStore<K, V>>, order: seq<string>)

  /** What an operation hands back to its caller, together with the provider's next state. */
  datatype Reply<T, K, V> = Reply(value: T, provider: Provider<K, V>)

  /** The index and the list describe the same sessions: every list entry is indexed, every
      indexed id is in the list exactly once, and every store sits under its own id. */
  ghost predicate Valid<K, V>(p: Provider<K, V>)
  {
    && NoDup(p.order)
    && (forall s :: s in p.sessions ==> s in p.order)
    && (forall s :: s in p.order ==> s in p.sessions)
    && (forall s :: s in p.sessions ==> p.sessions[s].sid == s)
  }

  /** The provider as the package creates it: empty index, empty list. */
  function Empty<K, V>(): (p: Provider<K, V>)
    ensures Valid(p) && |p.sessions| == 0
  {
    Provider(map[], [])
  }

  /** GC's expiry test: last access plus the lifetime lies strictly before `now`. */
  predicate Expired<K, V>(st: SessionStore<K, V>, maxlifetime: int, now: int)
  {
    st.timeAccessed + maxlifetime < now
  }

  /** Expiry is for good: a store expired at `now` is expired at every later time and under
      every shorter lifetime, and a store accessed no later is expired too. A store is
      still live at the very second its lifetime runs out. */
  lemma ExpiryIsMonotone<K, V>(st: SessionStore<K, V>, older: SessionStore<K, V>, maxlifetime: int, now: int, later: int, shorter: int)
    requires now <= later && shorter <= maxlifetime && older.timeAccessed <= st.timeAccessed
    ensures Expired(st, maxlifetime, now) ==> Expired(st, maxlifetime, later)
    ensures Expired(st, maxlifetime, now) ==> Expired(st, shorter, now)
    ensures Expired(st, maxlifetime, now) ==> Expired(older, maxlifetime, now)
    ensures !Expired(st, maxlifetime, st.timeAccessed + maxlifetime)
    ensures Expired(st, maxlifetime, st.timeAccessed + maxlifetime + 1)
  {
  }

  /** `SessionInit`: a new empty store stamped `now`, indexed under `sid` and pushed at
      the BACK of the list. There is no duplicate check (see `InitExistingOrphans`). */
  function Init<K, V>(p: Provider<K, V>, sid: string, now: int): (r: Reply<SessionStore<K, V>, K, V>)
    ensures r.value.sid == sid && r.value.timeAccessed == now && r.value.values == map[]
    ensures forall s :: s in r.provider.sessions <==> s in p.sessions || s == sid
    ensures r.provider.sessions[sid] == r.value
    ensures forall s :: s in p.sessions && s != sid ==> r.provider.sessions[s] == p.sessions[s]
    ensures |r.provider.order| == |p.order| + 1
    ensures r.provider.order[..|p.order|] == p.order && r.provider.order[|p.order|] == sid
  {
    var st := NewStore(sid, now);
    Reply(st, Provider(p.sessions[sid := st], p.order + [sid]))
  }

  /** `SessionInit` as the recency discipline intends it: the new store, the most recently
      accessed one, is pushed at the FRONT of the list. */
  function InitFront<K, V>(p: Provider<K, V>, sid: string, now: int): (r: Reply<SessionStore<K, V>, K, V>)
    ensures r.value.sid == sid && r.value.timeAccessed == now && r.value.values == map[]
    ensures forall s :: s in r.provider.sessions <==> s in p.sessions || s == sid
    ensures r.provider.sessions[sid] == r.value
    ensures forall s :: s in p.sessions && s != sid ==> r.provider.sessions[s] == p.sessions[s]
    ensures |r.provider.order| == |p.order| + 1
    ensures r.provider.order[0] == sid && r.provider.order[1..] == p.order
  {
    var st := NewStore(sid, now);
    Reply(st, Provider(p.sessions[sid := st], [sid] + p.order))
  }

  /** `SessionRead`: the indexed store, state untouched; an unknown id is handed to `Init`. */
  function Read<K, V>(p: Provider<K, V>, sid: string, now: int): (r: Reply<SessionStore<K, V>, K, V>)
    ensures sid in p.sessions ==> r.value == p.sessions[sid] && r.provider == p
    ensures sid !in p.sessions ==> r == Init(p, sid, now)
    ensures Valid(p) ==> r.value.sid == sid
  {
    if sid in p.sessions then Reply(p.sessions[sid], p) else Init(p, sid, now)
  }

  /** `SessionDestroy`: drop `sid` from the index and the list; nothing happens when it is unknown. */
  function Destroy<K, V>(p: Provider<K, V>, sid: string): (r: Provider<K, V>)
    ensures sid in p.sessions ==> sid !in r.order
    ensures forall s :: s in r.sessions <==> s in p.sessions && s != sid
    ensures forall s :: s in r.sessions ==> r.sessions[s] == p.sessions[s]
    ensures sid !in p.sessions ==> r == p
    ensures forall s :: s in r.order ==> s in p.order
  {
    if sid in p.sessions then Provider(p.sessions - {sid}, Without(p.order, sid)) else p
  }

  /** `SessionUpdate`: stamp the store `now` and move it to the front of the list; nothing
      happens when `sid` is unknown. */
  function Update<K, V>(p: Provider<K, V>, sid: string, now: int): (r: Provider<K, V>)
    ensures sid !in p.sessions ==> r == p
    ensures forall s :: s in r.sessions <==> s in p.sessions
    ensures sid in p.sessions ==>
      && r.sessions[sid] == p.sessions[sid].(timeAccessed := now)
      && |r.order| > 0 && r.order[0] == sid
      && r.order[1..] == Without(p.order, sid)
    ensures forall s :: s in p.sessions && s != sid ==> r.sessions[s] == p.sessions[s]
  {
    if sid in p.sessions then
      var st := p.sessions[sid];
      Provider(p.sessions[sid := st.(timeAccessed := now)], [sid] + Without(p.order, sid))
    else p
  }

  /** `SessionStore.Set` on the store of `sid`: bind `key`, then `SessionUpdate`. */
  function Set<K(!new), V>(p: Provider<K, V>, sid: string, key: K, value: V, now: int): (r: Provider<K, V>)
    ensures sid !in p.sessions ==> r == p
    ensures forall s :: s in r.sessions <==> s in p.sessions
    ensures sid in p.sessions ==>
      && Lookup(r.sessions[sid], key) == Some(value)
      && (forall k :: k != key ==> Lookup(r.sessions[sid], k) == Lookup(p.sessions[sid], k))
      && r.sessions[sid].sid == p.sessions[sid].sid
      && r.sessions[sid].timeAccessed == now
      && r.order == Update(p, sid, now).order
    ensures forall s :: s in p.sessions && s != sid ==> r.sessions[s] == p.sessions[s]
  {
    if sid in p.sessions then
      Update(p.(sessions := p.sessions[sid := Put(p.sessions[sid], key, value)]), sid, now)
    else p
  }

  /** `SessionStore.Get` on the store of `sid`: `SessionUpdate`, then look `key` up. */
  function Get<K, V>(p: Provider<K, V>, sid: string, key: K, now: int): (r: Reply<Option<V>, K, V>)
    ensures r.provider == Update(p, sid, now)
    ensures sid in p.sessions ==> r.value == Lookup(p.sessions[sid], key)
    ensures sid !in p.sessions ==> r.value == None
  {
    var q := Update(p, sid, now);
    Reply(if sid in q.sessions then Lookup(q.sessions[sid], key) else None, q)
  }

  /** `SessionStore.Delete` on the store of `sid`: unbind `key`, then `SessionUpdate`. */
  function Delete<K(!new), V>(p: Provider<K, V>, sid: string, key: K, now: int): (r: Provider<K, V>)
    ensures sid !in p.sessions ==> r == p
    ensures forall s :: s in r.sessions <==> s in p.sessions
    ensures sid in p.sessions ==>
      && Lookup(r.sessions[sid], key) == None
      && (forall k :: k != key ==> Lookup(r.sessions[sid], k) == Lookup(p.sessions[sid], k))
      && r.sessions[sid].sid == p.sessions[sid].sid
      && r.sessions[sid].timeAccessed == now
      && r.order == Update(p, sid, now).order
    ensures forall s :: s in p.sessions && s != sid ==> r.sessions[s] == p.sessions[s]
  {
    if sid in p.sessions then
      Update(p.(sessions := p.sessions[sid := Drop(p.sessions[sid], key)]), sid, now)
    else p
  }

  /** `SessionGC`: while the back of the list is expired, drop it from list and index; stop
      at the first back entry that is still live, or when the list is empty. */
  function GC<K, V>(p: Provider<K, V>, maxlifetime: int, now: int): (r: Provider<K, V>)
    ensures |r.order| <= |p.order| && r.order == p.order[..|r.order|]
    ensures forall i :: |r.order| <= i < |p.order| ==>
      p.order[i] in p.sessions && Expired(p.sessions[p.order[i]], maxlifetime, now)
    ensures |r.order| > 0 ==>
      var back := r.order[|r.order| - 1];
      !(back in r.sessions && Expired(r.sessions[back], maxlifetime, now))
    ensures forall s :: s in r.sessions ==> s in p.sessions && r.sessions[s] == p.sessions[s]
    decreases |p.order|
  {
    if |p.order| == 0 then p
    else
      var back := p.order[|p.order| - 1];
      if back in p.sessions && Expired(p.sessions[back], maxlifetime, now) then
        var q := Provider(p.sessions - {back}, p.order[..|p.order| - 1]);
        var r := GC(q, maxlifetime, now);
        assert r.order == q.order[..|r.order|] == p.order[..|r.order|];
        r
      else p
  }
}

=== FILE: orphans.dfy ===
/** What the element-level provider does with the element a duplicate `SessionInit` leaves
    behind: the state stays well formed, but a later sweep of that orphan drops the index
    entry of the live session carrying the same id. */
module Orphans {
  import opened Seqs
  import opened Store
  import opened Linked
  import Memory

  /** `SessionInit` keeps the element-level shape for any id, even one already indexed. */
  lemma InitKeepsWf<K, V>(p: Provider<K, V>, sid: string, now: int)
    requires Wf(p)
    ensures Wf(Init(p, sid, now).provider)
  {
    var q := Init(p, sid, now).provider;
    assert p.next !in p.list;
    NoDupSnoc(p.list, p.next);
    forall s | s in q.index ensures q.index[s] in q.list && q.heap[q.index[s]].sid == s {
      if s != sid {
        assert p.index[s] in p.list;
      }
    }
  }

  /** `SessionInit` of an id not yet indexed leaves no orphan behind. */
  lemma InitFreshKeepsWhole<K, V>(p: Provider<K, V>, sid: string, now: int)
    requires Wf(p) && Whole(p) && sid !in p.index
    ensures Wf(Init(p, sid, now).provider) && Whole(Init(p, sid, now).provider)
  {
    InitKeepsWf(p, sid, now);
    var q := Init(p, sid, now).provider;
    forall t | t in q.list ensures q.heap[t].sid in q.index && q.index[q.heap[t].sid] == t {
      if t != p.next {
        assert t in p.list;
        assert p.heap[t].sid != sid;
      }
    }
  }

  /** `SessionInit` of an id already indexed leaves the element it was indexed to in the
      list, no longer reachable through the index: an orphan. */
  lemma InitDuplicateOrphans<K, V>(p: Provider<K, V>, sid: string, now: int)
    requires Wf(p) && sid in p.index
    ensures var q := Init(p, sid, now).provider;
      && Listed(q)
      && p.index[sid] in q.list && q.heap[p.index[sid]].sid == sid && q.index[sid] != p.index[sid]
      && !Whole(q)
  {
    InitKeepsWf(p, sid, now);
    var q := Init(p, sid, now).provider;
    var old_t := p.index[sid];
    assert old_t in p.list;
    assert old_t < p.next;
    assert q.heap[old_t].sid == sid;
  }

  /** `SessionDestroy` keeps the element-level shape. */
  lemma DestroyKeepsWf<K, V>(p: Provider<K, V>, sid: string)
    requires Wf(p)
    ensures Wf(Destroy(p, sid))
  {
    if sid in p.index {
      var q := Destroy(p, sid);
      var t := p.index[sid];
      WithoutNoDup(p.list, t);
      forall s | s in q.index ensures q.index[s] in q.list {
        assert p.index[s] in p.list;
        assert p.index[s] != t by {
          assert p.heap[p.index[s]].sid == s;
        }
        WithoutKeeps(p.list, t, p.index[s]);
      }
    }
  }

  /** `SessionDestroy` removes only the indexed element: an orphan carrying the same id
      stays in the list. */
  lemma DestroyLeavesOrphans<K, V>(p: Provider<K, V>, sid: string, t: nat)
    requires t in p.list && (sid !in p.index || t != p.index[sid])
    ensures t in Destroy(p, sid).list
  {
    if sid in p.index {
      WithoutKeeps(p.list, p.index[sid], t);
    }
  }

  /** `SessionUpdate` keeps the element-level shape. */
  lemma UpdateKeepsWf<K, V>(p: Provider<K, V>, sid: string, now: int)
    requires Wf(p)
    ensures Wf(Update(p, sid, now))
  {
    if sid in p.index {
      var q := Update(p, sid, now);
      var t := p.index[sid];
      var w := Without(p.list, t);
      WithoutNoDup(p.list, t);
      assert q.list == [t] + w;
      assert NoDup(q.list) by {
        forall i, j | 0 <= i < j < |q.list| ensures q.list[i] != q.list[j] {
          if i == 0 {
            assert q.list[j] == w[j - 1];
            assert w[j - 1] in w;
          } else {
            assert q.list[i] == w[i - 1] && q.list[j] == w[j - 1];
          }
        }
      }
      forall u | u in q.list ensures u in q.heap {
        if u != t {
          assert u in w;
        }
      }
      forall s | s in q.index ensures q.index[s] in q.list && q.heap[q.index[s]].sid == s {
        var u := p.index[s];
        if u != t {
          WithoutKeeps(p.list, t, u);
          assert u in q.list[1..];
        }
      }
    }
  }

  /** One round of the sweep keeps the element-level shape: when the back element goes,
      the index entry it is reached by, if any, goes with it. */
  lemma DropBackKeepsWf<K, V>(p: Provider<K, V>)
    requires Wf(p) && |p.list| > 0
    ensures var back := p.list[|p.list| - 1];
      Wf(Provider(p.index - {p.heap[back].sid}, p.heap, p.list[..|p.list| - 1], p.next))
  {
    var back := p.list[|p.list| - 1];
    var q := Provider(p.index - {p.heap[back].sid}, p.heap, p.list[..|p.list| - 1], p.next);
    assert NoDup(q.list) by {
      forall i, j | 0 <= i < j < |q.list| ensures q.list[i] != q.list[j] {
        assert q.list[i] == p.list[i] && q.list[j] == p.list[j];
      }
    }
    forall s | s in q.index ensures q.index[s] in q.list {
      var u := p.index[s];
      assert u != back;
      var k :| 0 <= k < |p.list| && p.list[k] == u;
      assert k != |p.list| - 1;
      assert q.list[k] == u;
    }
  }

  /** `SessionGC` keeps the element-level shape. */
  lemma {:induction false} GCKeepsWf<K, V>(p: Provider<K, V>, maxlifetime: int, now: int)
    requires Wf(p)
    ensures Wf(GC(p, maxlifetime, now))
    decreases |p.list|
  {
    if |p.list| > 0 {
      var back := p.list[|p.list| - 1];
      if Memory.Expired(p.heap[back], maxlifetime, now) {
        DropBackKeepsWf(p);
        GCKeepsWf(Provider(p.index - {p.heap[back].sid}, p.heap, p.list[..|p.list| - 1], p.next), maxlifetime, now);
      }
    }
  }

  /** Every id carried by a swept element loses its index entry, whichever element the
      entry pointed to. */
  lemma {:induction false} GCUnindexesSwept<K, V>(p: Provider<K, V>, maxlifetime: int, now: int, i: int)
    requires Listed(p)
    requires |GC(p, maxlifetime, now).list| <= i < |p.list|
    ensures p.heap[p.list[i]].sid !in GC(p, maxlifetime, now).index
    decreases |p.list|
  {
    var back := p.list[|p.list| - 1];
    var q := Provider(p.index - {p.heap[back].sid}, p.heap, p.list[..|p.list| - 1], p.next);
    assert Memory.Expired(p.heap[back], maxlifetime, now);
    assert GC(p, maxlifetime, now) == GC(q, maxlifetime, now);
    if i < |p.list| - 1 {
      assert q.list[i] == p.list[i];
      GCUnindexesSwept(q, maxlifetime, now, i);
    }
  }

  /** An index entry is dropped only because some swept element carries its id. */
  lemma {:induction false} GCDeletesOnlySwept<K, V>(p: Provider<K, V>, maxlifetime: int, now: int, s: string)
    requires Listed(p) && s in p.index && s !in GC(p, maxlifetime, now).index
    ensures exists i :: |GC(p, maxlifetime, now).list| <= i < |p.list| && p.heap[p.list[i]].sid == s
    decreases |p.list|
  {
    var back := p.list[|p.list| - 1];
    var q := Provider(p.index - {p.heap[back].sid}, p.heap, p.list[..|p.list| - 1], p.next);
    if Memory.Expired(p.heap[back], maxlifetime, now) {
      var r := GC(q, maxlifetime, now);
      assert GC(p, maxlifetime, now) == r;
      if p.heap[back].sid == s {
        assert |r.list| <= |q.list|;
        assert p.heap[p.list[|p.list| - 1]].sid == s;
      } else {
        GCDeletesOnlySwept(q, maxlifetime, now, s);
        var i :| |r.list| <= i < |q.list| && q.heap[q.list[i]].sid == s;
        assert p.list[i] == q.list[i];
      }
    }
  }

  /** Without orphans the sweep is safe: a session whose store is live keeps its index
      entry. */
  lemma WholeGCKeepsLive<K, V>(p: Provider<K, V>, maxlifetime: int, now: int, s: string)
    requires Wf(p) && Whole(p) && s in p.index
    requires !Memory.Expired(p.heap[p.index[s]], maxlifetime, now)
    ensures s in GC(p, maxlifetime, now).index
  {
    if s !in GC(p, maxlifetime, now).index {
      GCDeletesOnlySwept(p, maxlifetime, now, s);
    }
  }

  /** The state the orphan scenario below reaches: the id "" is indexed to element 1, used
      at 6 and at the front, while element 0, the orphan stamped 0, is at the back. */
  function OrphanedState(): Provider<int, int>
  {
    Provider(map["" := 1], map[0 := SessionStore("", 0, map[]), 1 := SessionStore("", 6, map[])], [1, 0], 2)
  }

  /** Two `SessionInit`s of the id "" (at 0 and at 5) leave the first element listed as an
      orphan; the index points to the second. */
  lemma DuplicateInits()
    ensures Init(Init(Empty<int, int>(), "", 0).provider, "", 5).provider
      == Provider(map["" := 1], map[0 := SessionStore("", 0, map[]), 1 := SessionStore("", 5, map[])], [0, 1], 2)
  {
  }

  /** Two `SessionStart`s whose random read fails both initialise the id "" (at 0 and at 5);
      using the session at 6 stamps the indexed element and moves it in front of the
      orphan, which gives `OrphanedState`. */
  lemma DuplicateInitsThenUpdate()
    ensures Wf(Init(Init(Empty<int, int>(), "", 0).provider, "", 5).provider)
      && Update(Init(Init(Empty<int, int>(), "", 0).provider, "", 5).provider, "", 6) == OrphanedState()
  {
    DuplicateInits();
    var p2: Provider<int, int> := Provider(map["" := 1], map[0 := SessionStore("", 0, map[]), 1 := SessionStore("", 5, map[])], [0, 1], 2);
    assert Wf(p2);
    assert Without(p2.list, 1) == [0] by {
      assert p2.list[1..] == [1];
    }
  }

  /** With an orphan, the sweep loses a live session. A sweep of `OrphanedState` at 12 with
      lifetime 10 removes the orphan, stamped 0, and with it the index entry of the live
      element, stamped 6, which stays listed but unreachable; the next `SessionRead` of ""
      creates a new empty store. */
  lemma OrphanSweepLosesLiveSession()
    ensures var q := GC(OrphanedState(), 10, 12);
      && q.list == [1] && q.heap[1].sid == "" && !Memory.Expired(q.heap[1], 10, 12)
      && "" !in q.index
      && Wf(q) && Read(q, "", 13).store == SessionStore("", 13, map[])
  {
    var p := OrphanedState();
    var q1 := Provider(map[], p.heap, [1], p.next);
    assert p.index - {""} == map[];
    assert p.list[..1] == [1];
    assert GC(p, 10, 12) == GC(q1, 10, 12);
    assert GC(q1, 10, 12) == q1;
    assert Wf(q1);
  }

  /** One round of the corrected sweep: the back element leaves the list, and its id leaves
      the index only when the entry points to that element. */
  function CheckedDropBack<K, V>(p: Provider<K, V>): Provider<K, V>
    requires |p.list| > 0 && p.list[|p.list| - 1] in p.heap
  {
    var back := p.list[|p.list| - 1];
    var sid := p.heap[back].sid;
    var index := if sid in p.index && p.index[sid] == back then p.index - {sid} else p.index;
    Provider(index, p.heap, p.list[..|p.list| - 1], p.next)
  }

  /** The sweep as intended: the back element's index entry is dropped only when it points
      to that very element, so an orphan goes without taking a live session's entry. */
  function GCChecked<K, V>(p: Provider<K, V>, maxlifetime: int, now: int): (r: Provider<K, V>)
    requires Listed(p)
    ensures |r.list| <= |p.list| && r.list == p.list[..|r.list|]
    ensures r.heap == p.heap && r.next == p.next
    ensures forall i :: |r.list| <= i < |p.list| ==> Memory.Expired(p.heap[p.list[i]], maxlifetime, now)
    ensures forall s :: s in r.index ==> s in p.index && r.index[s] == p.index[s]
    decreases |p.list|
  {
    if |p.list| == 0 then p
    else
      var back := p.list[|p.list| - 1];
      if Memory.Expired(p.heap[back], maxlifetime, now) then
        var q := CheckedDropBack(p);
        var r := GCChecked(q, maxlifetime, now);
        assert r.list == p.list[..|r.list|] by {
          assert q.list[..|r.list|] == p.list[..|r.list|];
        }
        assert forall i :: |r.list| <= i < |q.list| ==> q.list[i] == p.list[i];
        r
      else p
  }

  /** With the checked sweep, every session whose store is live keeps its index entry,
      orphans or not. */
  lemma {:induction false} GCCheckedKeepsLive<K, V>(p: Provider<K, V>, maxlifetime: int, now: int, s: string)
    requires Listed(p) && s in p.index && p.index[s] in p.heap
    requires !Memory.Expired(p.heap[p.index[s]], maxlifetime, now)
    ensures s in GCChecked(p, maxlifetime, now).index
    ensures GCChecked(p, maxlifetime, now).index[s] == p.index[s]
    decreases |p.list|
  {
    if |p.list| > 0 {
      var back := p.list[|p.list| - 1];
      if Memory.Expired(p.heap[back], maxlifetime, now) {
        var q := CheckedDropBack(p);
        assert s in q.index && q.index[s] == p.index[s];
        GCCheckedKeepsLive(q, maxlifetime, now, s);
      }
    }
  }

  /** The checked sweep drops an index entry only when the element it points to is swept:
      every id indexed to an element that stays listed keeps that entry. */
  lemma {:induction false} GCCheckedKeepsUnswept<K, V>(p: Provider<K, V>, maxlifetime: int, now: int, s: string)
    requires Listed(p) && s in p.index
    requires p.index[s] !in p.list[|GCChecked(p, maxlifetime, now).list|..]
    ensures s in GCChecked(p, maxlifetime, now).index
    ensures GCChecked(p, maxlifetime, now).index[s] == p.index[s]
    decreases |p.list|
  {
    if |p.list| > 0 {
      var back := p.list[|p.list| - 1];
      if Memory.Expired(p.heap[back], maxlifetime, now) {
        var q := CheckedDropBack(p);
        var r := GCChecked(q, maxlifetime, now);
        assert GCChecked(p, maxlifetime, now) == r;
        assert p.list[|r.list|..] == q.list[|r.list|..] + [back];
        ListedPrefix(p, q);
        assert s in q.index && q.index[s] == p.index[s];
        GCCheckedKeepsUnswept(q, maxlifetime, now, s);
      }
    }
  }

  /** One round of the checked sweep keeps the element-level shape. */
  lemma CheckedDropBackKeepsWf<K, V>(p: Provider<K, V>)
    requires Wf(p) && |p.list| > 0
    ensures Wf(CheckedDropBack(p))
  {
    var back := p.list[|p.list| - 1];
    var q := CheckedDropBack(p);
    assert NoDup(q.list) by {
      forall i, j | 0 <= i < j < |q.list| ensures q.list[i] != q.list[j] {
        assert q.list[i] == p.list[i] && q.list[j] == p.list[j];
      }
    }
    forall s | s in q.index ensures q.index[s] in q.list {
      var u := p.index[s];
      assert u != back by {
        assert p.heap[u].sid == s;
      }
      var k :| 0 <= k < |p.list| && p.list[k] == u;
      assert q.list[k] == u;
    }
  }

  /** The checked sweep keeps the element-level shape. */
  lemma {:induction false} GCCheckedKeepsWf<K, V>(p: Provider<K, V>, maxlifetime: int, now: int)
    requires Wf(p)
    ensures Wf(GCChecked(p, maxlifetime, now))
    decreases |p.list|
  {
    if |p.list| > 0 {
      var back := p.list[|p.list| - 1];
      if Memory.Expired(p.heap[back], maxlifetime, now) {
        CheckedDropBackKeepsWf(p);
        GCCheckedKeepsWf(CheckedDropBack(p), maxlifetime, now);
      }
    }
  }

  /** One round of the corrected sweep removes the entry pointing to the back element. */
  lemma CheckedDropBackUnindexes<K, V>(p: Provider<K, V>, s: string)
    requires |p.list| > 0 && p.list[|p.list| - 1] in p.heap
    requires s in p.index && p.index[s] == p.list[|p.list| - 1] && p.heap[p.index[s]].sid == s
    ensures s !in CheckedDropBack(p).index
  {
  }

  /** The checked sweep still unindexes what it sweeps: an id indexed to a swept element
      loses its entry, so no entry is left pointing outside the list. */
  lemma {:induction false} GCCheckedUnindexesSwept<K, V>(p: Provider<K, V>, maxlifetime: int, now: int, s: string)
    requires Listed(p) && s in p.index && p.index[s] in p.heap && p.heap[p.index[s]].sid == s
    requires p.index[s] in p.list[|GCChecked(p, maxlifetime, now).list|..]
    ensures s !in GCChecked(p, maxlifetime, now).index
    decreases |p.list|
  {
    var back := p.list[|p.list| - 1];
    var q := CheckedDropBack(p);
    if Memory.Expired(p.heap[back], maxlifetime, now) {
      var r := GCChecked(q, maxlifetime, now);
      assert GCChecked(p, maxlifetime, now) == r;
      if p.index[s] == back {
        CheckedDropBackUnindexes(p, s);
      } else {
        assert |r.list| <= |q.list|;
        InCutBeforeBack(p.list, |r.list|, p.index[s]);
        ListedPrefix(p, q);
        assert s in q.index && q.index[s] == p.index[s];
        GCCheckedUnindexesSwept(q, maxlifetime, now, s);
      }
    }
  }

  /** A prefix of the list over the same elements is still listed. */
  lemma ListedPrefix<K, V>(p: Provider<K, V>, q: Provider<K, V>)
    requires Listed(p) && q.heap == p.heap
    requires |q.list| <= |p.list| && q.list == p.list[..|q.list|]
    ensures Listed(q)
  {
    forall t | t in q.list
      ensures t in q.heap
    {
      var k :| 0 <= k < |q.list| && q.list[k] == t;
      assert p.list[k] == t;
    }
  }

  /** An element of the part cut at `n` that is not the back one is still in the part cut
      at `n` once the back element is dropped. */
  lemma InCutBeforeBack<T>(a: seq<T>, n: int, u: T)
    requires 0 <= n < |a| && u in a[n..] && u != a[|a| - 1]
    ensures u in a[..|a| - 1][n..]
  {
    var k :| 0 <= k < |a| - n && a[n..][k] == u;
    assert a[..|a| - 1][n..][k] == u;
  }

  /** On `OrphanedState`, the checked sweep removes the orphan and keeps the live session
      indexed. */
  lemma CheckedSweepKeepsSession()
    ensures var q := GCChecked(OrphanedState(), 10, 12);
      q.list == [1] && "" in q.index && q.index[""] == 1
  {
    var p := OrphanedState();
    var q1 := Provider(p.index, p.heap, [1], p.next);
    assert p.list[..1] == [1];
    assert GCChecked(p, 10, 12) == GCChecked(q1, 10, 12);
    assert GCChecked(q1, 10, 12) == q1;
  }
}

=== FILE: recency.dfy ===
/** The recency discipline the GC sweep relies on: front-to-back non-increasing access
    times. `SessionUpdate` keeps it; `SessionInit`, which appends at the back, does not. */
module Recency {
  import opened Seqs
  import opened Store
  import opened Memory
  import opened Invariants

  /** Session `a` was accessed no earlier than session `b` (vacuous for unindexed ids). */
  ghost predicate Newer<K, V>(m: map<string, SessionStore<K, V>>, a: string, b: string)
  {
    a in m && b in m ==> m[b].timeAccessed <= m[a].timeAccessed
  }

  /** Access times in `m` never increase along `o`. */
  ghost predicate Sorted<K, V>(m: map<string, SessionStore<K, V>>, o: seq<string>)
  {
    forall i, j :: 0 <= i < j < |o| ==> Newer(m, o[i], o[j])
  }

  /** Access times never increase from the front of the list to its back. */
  ghost predicate Ordered<K, V>(p: Provider<K, V>)
  {
    Sorted(p.sessions, p.order)
  }

  /** No store was accessed after `now`: the clock has not gone backwards. */
  ghost predicate NotAfter<K, V>(p: Provider<K, V>, now: int)
  {
    forall s :: s in p.sessions ==> p.sessions[s].timeAccessed <= now
  }

  /** Taking one entry out of a sorted list leaves it sorted. */
  lemma SortedRemoveAt<K, V>(m: map<string, SessionStore<K, V>>, o: seq<string>, k: int)
    requires Sorted(m, o) && 0 <= k < |o|
    ensures Sorted(m, o[..k] + o[k + 1..])
  {
    var w := o[..k] + o[k + 1..];
    forall i, j | 0 <= i < j < |w| ensures Newer(m, w[i], w[j]) {
      var i' := if i < k then i else i + 1;
      var j' := if j < k then j else j + 1;
      assert w[i] == o[i'] && w[j] == o[j'];
    }
  }

  /** Rewriting the store of an id that is not in the list does not affect sortedness. */
  lemma SortedReplace<K, V>(m: map<string, SessionStore<K, V>>, o: seq<string>, sid: string, st: SessionStore<K, V>)
    requires Sorted(m, o) && sid !in o
    ensures Sorted(m[sid := st], o)
  {
    forall i, j | 0 <= i < j < |o| ensures Newer(m[sid := st], o[i], o[j]) {
      assert o[i] != sid && o[j] != sid;
      assert Newer(m, o[i], o[j]);
    }
  }

  /** Putting an entry at least as new as all others at the front of a sorted list keeps it sorted. */
  lemma SortedCons<K, V>(m: map<string, SessionStore<K, V>>, o: seq<string>, sid: string)
    requires Sorted(m, o)
    requires forall x :: x in o ==> Newer(m, sid, x)
    ensures Sorted(m, [sid] + o)
  {
    var o' := [sid] + o;
    forall i, j | 0 <= i < j < |o'| ensures Newer(m, o'[i], o'[j]) {
      assert o'[j] == o[j - 1];
      if i > 0 {
        assert o'[i] == o[i - 1];
      }
    }
  }

  /** Moving the entry at `k` to the front with a store at least as new as every other
      keeps a sorted list sorted. */
  lemma MoveToFrontSorted<K, V>(m: map<string, SessionStore<K, V>>, o: seq<string>, k: int, st: SessionStore<K, V>)
    requires Sorted(m, o) && 0 <= k < |o|
    requires o[k] !in o[..k] + o[k + 1..]
    requires forall x :: x in m ==> m[x].timeAccessed <= st.timeAccessed
    ensures Sorted(m[o[k] := st], [o[k]] + (o[..k] + o[k + 1..]))
  {
    var w := o[..k] + o[k + 1..];
    var m' := m[o[k] := st];
    SortedRemoveAt(m, o, k);
    SortedReplace(m, w, o[k], st);
    forall x | x in w ensures Newer(m', o[k], x) {
      assert x != o[k];
    }
    SortedCons(m', w, o[k]);
  }

  /** `SessionUpdate` of the entry at `k`, the only occurrence of `sid`, keeps a sorted
      list sorted when the clock has not gone backwards. */
  lemma UpdateAtKeepsOrdered<K, V>(p: Provider<K, V>, sid: string, k: int, now: int)
    requires 0 <= k < |p.order| && p.order[k] == sid && sid in p.sessions
    requires sid !in p.order[..k] + p.order[k + 1..]
    requires Ordered(p) && NotAfter(p, now)
    ensures Ordered(Update(p, sid, now))
  {
    var st := p.sessions[sid].(timeAccessed := now);
    WithoutOnly(p.order, k);
    MoveToFrontSorted(p.sessions, p.order, k, st);
    assert Update(p, sid, now) == Provider(p.sessions[sid := st], [sid] + (p.order[..k] + p.order[k + 1..]));
  }

  /** `SessionUpdate` with a clock that has not gone backwards keeps the list ordered:
      the refreshed entry goes to the front with the newest time, the rest keep their
      order and their times. */
  lemma UpdateKeepsOrdered<K, V>(p: Provider<K, V>, sid: string, now: int)
    requires Valid(p) && Ordered(p) && NotAfter(p, now)
    ensures Ordered(Update(p, sid, now)) && NotAfter(Update(p, sid, now), now)
  {
    if sid in p.sessions {
      assert sid in p.order;
      var k :| 0 <= k < |p.order| && p.order[k] == sid;
      NoDupElsewhere(p.order, k);
      UpdateAtKeepsOrdered(p, sid, k, now);
    }
  }

  /** Forgetting some stores, the others unchanged, does not affect sortedness. */
  lemma SortedSub<K, V>(m: map<string, SessionStore<K, V>>, m': map<string, SessionStore<K, V>>, o: seq<string>)
    requires Sorted(m, o)
    requires forall s :: s in m' ==> s in m && m'[s] == m[s]
    ensures Sorted(m', o)
  {
    forall i, j | 0 <= i < j < |o| ensures Newer(m', o[i], o[j]) {
      assert Newer(m, o[i], o[j]);
    }
  }

  /** `SessionDestroy` keeps the list ordered: it only takes one entry out. */
  lemma DestroyKeepsOrdered<K, V>(p: Provider<K, V>, sid: string)
    requires Valid(p) && Ordered(p)
    ensures Ordered(Destroy(p, sid))
  {
    if sid in p.sessions {
      var q := Destroy(p, sid);
      assert sid in p.order;
      var k :| 0 <= k < |p.order| && p.order[k] == sid;
      DestroyKeepsRelativeOrder(p, sid, k);
      SortedRemoveAt(p.sessions, p.order, k);
      SortedSub(p.sessions, q.sessions, q.order);
    }
  }

  /** `SessionGC` keeps the list ordered: the survivors are a prefix with unchanged stores. */
  lemma GCKeepsOrdered<K, V>(p: Provider<K, V>, maxlifetime: int, now: int)
    requires Ordered(p)
    ensures Ordered(GC(p, maxlifetime, now))
  {
    var q := GC(p, maxlifetime, now);
    assert Sorted(p.sessions, q.order) by {
      forall i, j | 0 <= i < j < |q.order| ensures Newer(p.sessions, q.order[i], q.order[j]) {
        assert q.order[i] == p.order[i] && q.order[j] == p.order[j];
      }
    }
    SortedSub(p.sessions, q.sessions, q.order);
  }

  /** In a sorted list whose back entry is live, every indexed entry is live. */
  lemma LiveBackSortedAllLive<K, V>(m: map<string, SessionStore<K, V>>, o: seq<string>, maxlifetime: int, now: int, i: int)
    requires Sorted(m, o) && 0 <= i < |o| && o[i] in m
    requires o[|o| - 1] in m && !Expired(m[o[|o| - 1]], maxlifetime, now)
    ensures !Expired(m[o[i]], maxlifetime, now)
  {
    if i < |o| - 1 {
      assert Newer(m, o[i], o[|o| - 1]);
    }
  }

  /** Every session that survives the sweep is still in the list, and the other way round. */
  lemma GCSurvivorsListed<K, V>(p: Provider<K, V>, maxlifetime: int, now: int, q: Provider<K, V>)
    requires Valid(p) && q == GC(p, maxlifetime, now)
    ensures forall s :: s in q.sessions <==> s in q.order
  {
    GCKeepsValid(p, maxlifetime, now);
    assert Valid(q);
  }

  /** On an ordered list the sweep is complete: stopping at the first live entry from the
      back leaves no expired session behind. */
  lemma GCClearsExpired<K, V>(p: Provider<K, V>, maxlifetime: int, now: int)
    requires Valid(p) && Ordered(p)
    ensures var q := GC(p, maxlifetime, now);
      forall s :: s in q.sessions ==> !Expired(q.sessions[s], maxlifetime, now)
  {
    var q := GC(p, maxlifetime, now);
    GCSurvivorsListed(p, maxlifetime, now, q);
    GCKeepsOrdered(p, maxlifetime, now);
    assert Sorted(q.sessions, q.order);
    if |q.order| > 0 {
      var back := q.order[|q.order| - 1];
      assert back in q.order;
      forall s | s in q.sessions ensures !Expired(q.sessions[s], maxlifetime, now) {
        assert s in q.order;
        var i :| 0 <= i < |q.order| && q.order[i] == s;
        LiveBackSortedAllLive(q.sessions, q.order, maxlifetime, now, i);
      }
    }
  }


  /** Putting an entry no newer than all others at the back of a sorted list keeps it sorted. */
  lemma SortedSnoc<K, V>(m: map<string, SessionStore<K, V>>, o: seq<string>, sid: string)
    requires Sorted(m, o)
    requires forall x :: x in o ==> Newer(m, x, sid)
    ensures Sorted(m, o + [sid])
  {
    var o' := o + [sid];
    forall i, j | 0 <= i < j < |o'| ensures Newer(m, o'[i], o'[j]) {
      assert o'[i] == o[i];
      if j < |o| {
        assert o'[j] == o[j];
      }
    }
  }

  /** If the list is ordered after `SessionInit`, no existing store was older than `now`. */
  lemma InitOrderedOnlyIf<K, V>(p: Provider<K, V>, sid: string, now: int, s: string)
    requires Valid(p) && sid !in p.sessions && s in p.sessions
    requires Ordered(Init(p, sid, now).provider)
    ensures now <= p.sessions[s].timeAccessed
  {
    var q := Init(p, sid, now).provider;
    var n := |p.order|;
    var i :| 0 <= i < n && p.order[i] == s;
    assert q.order[i] == s && q.order[n] == sid;
    assert Newer(q.sessions, q.order[i], q.order[n]);
  }

  /** `SessionInit` of a fresh id keeps an ordered list ordered exactly when no existing
      store is older than `now`: the new, newest entry lands at the back. With a clock
      that has not gone backwards, that means every store was accessed at `now` itself. */
  lemma InitOrderedIff<K, V>(p: Provider<K, V>, sid: string, now: int)
    requires Valid(p) && Ordered(p) && sid !in p.sessions
    ensures Ordered(Init(p, sid, now).provider) <==>
      forall s :: s in p.sessions ==> now <= p.sessions[s].timeAccessed
  {
    var q := Init(p, sid, now).provider;
    if Ordered(q) {
      forall s | s in p.sessions ensures now <= p.sessions[s].timeAccessed {
        InitOrderedOnlyIf(p, sid, now, s);
      }
    }
    if forall s :: s in p.sessions ==> now <= p.sessions[s].timeAccessed {
      assert sid !in p.order;
      SortedReplace(p.sessions, p.order, sid, q.sessions[sid]);
      assert q.sessions == p.sessions[sid := q.sessions[sid]];
      forall x | x in p.order ensures Newer(q.sessions, x, sid) {
        assert x != sid;
      }
      SortedSnoc(q.sessions, p.order, sid);
      assert q.order == p.order + [sid];
    }
  }

  /** Two sessions created one second apart: the newer one sits at the back, so the
      list is no longer ordered. */
  lemma InitBreaksOrdered()
    ensures var p := Init(Init(Empty<int, int>(), "a", 1).provider, "b", 2).provider;
      Valid(p) && !Ordered(p)
  {
    var p0 := Empty<int, int>();
    var p1 := Init(p0, "a", 1).provider;
    InitFreshKeepsValid(p0, "a", 1);
    var p := Init(p1, "b", 2).provider;
    InitFreshKeepsValid(p1, "b", 2);
    assert p.order == ["a", "b"];
    assert p.sessions["a"].timeAccessed == 1 && p.sessions["b"].timeAccessed == 2;
  }

  /** Because of that, the sweep can stop too early: a session created at 0 and one
      created at 100, swept at 200 with lifetime 150, keep the expired first session,
      hidden in front of the live second one. */
  lemma GCMissesExpiredAfterInit()
    ensures var p := Init(Init(Empty<int, int>(), "a", 0).provider, "b", 100).provider;
      var q := GC(p, 150, 200);
      "a" in q.sessions && Expired(q.sessions["a"], 150, 200)
  {
    var p := Init(Init(Empty<int, int>(), "a", 0).provider, "b", 100).provider;
    assert p.order == ["a", "b"];
    assert p.sessions["b"].timeAccessed == 100;
    assert GC(p, 150, 200) == p;
  }

  /** Sessions accessed 0, 10, 50 and 200 seconds ago, swept with lifetime 100: only the
      one idle for 200 seconds goes, the others stay in their order. */
  lemma GCRemovesOnlyStale()
    ensures var p := Provider(
        map["w" := SessionStore("w", 1000, map[]), "x" := SessionStore("x", 990, map[]),
            "y" := SessionStore("y", 950, map[]), "z" := SessionStore("z", 800, map[])],
        ["w", "x", "y", "z"]);
      var q := GC<int, int>(p, 100, 1000);
      q.order == ["w", "x", "y"] && q.sessions.Keys == {"w", "x", "y"}
  {
    var p := Provider(
        map["w" := SessionStore("w", 1000, map[]), "x" := SessionStore("x", 990, map[]),
            "y" := SessionStore("y", 950, map[]), "z" := SessionStore("z", 800, map[])],
        ["w", "x", "y", "z"]);
    var p' := Provider(p.sessions - {"z"}, ["w", "x", "y"]);
    assert p.order[..3] == ["w", "x", "y"];
    assert GC<int, int>(p, 100, 1000) == GC(p', 100, 1000);
    assert GC<int, int>(p', 100, 1000) == p';
  }

  /** The front-inserting `SessionInit` of a fresh id keeps the list ordered whenever the
      clock has not gone backwards: the new store is the newest and lands at the front. */
  lemma InitFrontKeepsOrdered<K, V>(p: Provider<K, V>, sid: string, now: int)
    requires Valid(p) && Ordered(p) && NotAfter(p, now) && sid !in p.sessions
    ensures Ordered(InitFront(p, sid, now).provider) && NotAfter(InitFront(p, sid, now).provider, now)
  {
    var q := InitFront(p, sid, now).provider;
    assert sid !in p.order;
    SortedReplace(p.sessions, p.order, sid, q.sessions[sid]);
    assert q.sessions == p.sessions[sid := q.sessions[sid]];
    forall x | x in p.order ensures Newer(q.sessions, sid, x) {
      assert x != sid;
    }
    SortedCons(q.sessions, p.order, sid);
    assert q.order == [sid] + p.order;
  }

  /** With front insertion, the scenario of `GCMissesExpiredAfterInit` is swept correctly:
      the expired first session sits at the back and goes, the live one stays. */
  lemma GCClearsExpiredAfterInitFront()
    ensures var p := InitFront(InitFront(Empty<int, int>(), "a", 0).provider, "b", 100).provider;
      var q := GC(p, 150, 200);
      "a" !in q.sessions && q.order == ["b"] && "b" in q.sessions
  {
    var p := InitFront(InitFront(Empty<int, int>(), "a", 0).provider, "b", 100).provider;
    assert p.order == ["b", "a"];
    assert p.sessions["a"].timeAccessed == 0 && p.sessions["b"].timeAccessed == 100;
    var p' := Provider(p.sessions - {"a"}, ["b"]);
    assert p.order[..1] == ["b"];
    assert GC(p, 150, 200) == GC(p', 150, 200);
    assert GC(p', 150, 200) == p';
  }

  /** `Set` keeps the list ordered: new values do not change access times, and the
      `SessionUpdate` that follows keeps the order. */
  lemma SetKeepsOrdered<K(!new), V>(p: Provider<K, V>, sid: string, key: K, value: V, now: int)
    requires Valid(p) && Ordered(p) && NotAfter(p, now)
    ensures Ordered(Set(p, sid, key, value, now)) && NotAfter(Set(p, sid, key, value, now), now)
  {
    if sid in p.sessions {
      var p1 := p.(sessions := p.sessions[sid := Put(p.sessions[sid], key, value)]);
      ValuesKeepValid(p, sid, p1.sessions[sid]);
      UpdateKeepsOrdered(p1, sid, now);
    }
  }

  /** `Delete` keeps the list ordered, like `Set`. */
  lemma DeleteKeepsOrdered<K(!new), V>(p: Provider<K, V>, sid: string, key: K, now: int)
    requires Valid(p) && Ordered(p) && NotAfter(p, now)
    ensures Ordered(Delete(p, sid, key, now)) && NotAfter(Delete(p, sid, key, now), now)
  {
    if sid in p.sessions {
      var p1 := p.(sessions := p.sessions[sid := Drop(p.sessions[sid], key)]);
      ValuesKeepValid(p, sid, p1.sessions[sid]);
      UpdateKeepsOrdered(p1, sid, now);
    }
  }

  /** Every call other than `SessionInit` (and a `SessionRead` that would create) keeps the
      list ordered when the clock has not gone backwards: only `SessionInit` breaks the
      premise GC's early stop relies on. */
  lemma StepKeepsOrdered<K(!new), V>(p: Provider<K, V>, op: Op<K, V>, now: int)
    requires Valid(p) && Ordered(p) && NotAfter(p, now)
    requires !op.OpInit? && (op.OpRead? ==> op.sid in p.sessions)
    ensures Ordered(Step(p, op, now)) && NotAfter(Step(p, op, now), now)
  {
    match op
    case OpRead(sid) =>
    case OpDestroy(sid) => DestroyKeepsOrdered(p, sid);
    case OpUpdate(sid) => UpdateKeepsOrdered(p, sid, now);
    case OpGC(maxlifetime) => GCKeepsOrdered(p, maxlifetime, now);
    case OpSet(sid, key, value) => SetKeepsOrdered(p, sid, key, value, now);
    case OpGet(sid, key) => UpdateKeepsOrdered(p, sid, now);
    case OpDelete(sid, key) => DeleteKeepsOrdered(p, sid, key, now);
  }
}

=== FILE: seqs.dfy ===
/** Sequence helpers for the recency list: duplicate-freedom and removal of one element. */
module Seqs {

  /** No element occurs twice. */
  ghost predicate NoDup<T>(s: seq<T>)
  {
    forall i, j :: 0 <= i < j < |s| ==> s[i] != s[j]
  }

  /** `s` with every occurrence of `x` removed, the other elements kept in their order. */
  function Without<T(==)>(s: seq<T>, x: T): (r: seq<T>)
    ensures forall y :: y in r ==> y in s && y != x
    ensures |r| <= |s|
    ensures x !in s ==> r == s
  {
    if |s| == 0 then []
    else if s[0] == x then Without(s[1..], x)
    else [s[0]] + Without(s[1..], x)
  }

  /** Removing an element that occurs only at position `k` closes the gap there. */
  lemma {:induction false} WithoutOnly<T>(s: seq<T>, k: int)
    requires 0 <= k < |s|
    requires s[k] !in s[..k] && s[k] !in s[k + 1..]
    ensures Without(s, s[k]) == s[..k] + s[k + 1..]
    decreases |s|
  {
    var x := s[k];
    if k == 0 {
      assert s[..0] + s[1..] == s[1..];
    } else {
      var t := s[1..];
      assert s[0] in s[..k];
      assert t[k - 1] == x;
      assert t[..k - 1] == s[1..k];
      assert x !in t[..k - 1];
      assert t[k..] == s[k + 1..];
      WithoutOnly(t, k - 1);
      assert [s[0]] + t[..k - 1] == s[..k];
    }
  }

  /** In a duplicate-free sequence, removing the element at position `k` closes the gap:
      everything before `k` and everything after it keep their relative order. */
  lemma WithoutAt<T>(s: seq<T>, k: int)
    requires NoDup(s)
    requires 0 <= k < |s|
    ensures Without(s, s[k]) == s[..k] + s[k + 1..]
  {
    NoDupElsewhere(s, k);
    WithoutOnly(s, k);
  }

  /** Removing `x` loses no other element. */
  lemma {:induction false} WithoutKeeps<T>(s: seq<T>, x: T, y: T)
    requires y in s && y != x
    ensures y in Without(s, x)
    decreases |s|
  {
    if s[0] != y {
      assert y in s[1..];
      WithoutKeeps(s[1..], x, y);
    }
  }

  /** Removing an element keeps a sequence duplicate-free. */
  lemma {:induction false} WithoutNoDup<T>(s: seq<T>, x: T)
    requires NoDup(s)
    ensures NoDup(Without(s, x))
    decreases |s|
  {
    if |s| > 0 {
      var t := s[1..];
      assert NoDup(t) by {
        forall i, j | 0 <= i < j < |t| ensures t[i] != t[j] {
          assert t[i] == s[i + 1] && t[j] == s[j + 1];
        }
      }
      WithoutNoDup(t, x);
      if s[0] != x {
        assert s[0] !in t by {
          forall i | 0 <= i < |t| ensures t[i] != s[0] {
            assert t[i] == s[i + 1];
          }
        }
        var r := [s[0]] + Without(t, x);
        forall i, j | 0 <= i < j < |r| ensures r[i] != r[j] {
          if i == 0 {
            assert r[j] in Without(t, x);
          }
        }
      }
    }
  }

  /** In a duplicate-free sequence the element at `k` occurs nowhere else. */
  lemma NoDupElsewhere<T>(s: seq<T>, k: int)
    requires NoDup(s) && 0 <= k < |s|
    ensures s[k] !in s[..k] + s[k + 1..]
  {
    var w := s[..k] + s[k + 1..];
    forall m | 0 <= m < |w| ensures w[m] != s[k] {
      if m < k {
        assert w[m] == s[m];
      } else {
        assert w[m] == s[m + 1];
      }
    }
  }

  /** Appending an element not yet present keeps a sequence duplicate-free. */
  lemma NoDupSnoc<T>(s: seq<T>, x: T)
    requires NoDup(s) && x !in s
    ensures NoDup(s + [x])
  {
    var t := s + [x];
    forall i, j | 0 <= i < j < |t| ensures t[i] != t[j] {
      assert t[i] == s[i];
      if j < |s| {
        assert t[j] == s[j];
      }
    }
  }

  /** Putting a new element in front keeps a duplicate-free sequence duplicate-free. */
  lemma NoDupCons<T>(s: seq<T>, x: T)
    requires NoDup(s) && x !in s
    ensures NoDup([x] + s)
  {
    var t := [x] + s;
    forall i, j | 0 <= i < j < |t| ensures t[i] != t[j] {
      assert t[j] == s[j - 1];
      if i > 0 {
        assert t[i] == s[i - 1];
      }
    }
  }
}

=== FILE: session.dfy ===
/** The `session` package of session/session.go: the provider registry, manager
    construction, and the decisions `SessionStart` and `SessionDestroy` take for a request
    before calling the provider. HTTP is reduced to the request's cookie value and the
    cookie directive written back; randomness and URL escaping come in as parameters. */
module Session {
  import opened Wrappers

  /** Why `Register` panics. */
  datatype RegisterError = NilProvider | DuplicateName(name: string)

  /** The panic message for each registration error. */
  function PanicMessage(e: RegisterError): string
  {
    match e
    case NilProvider => "session: Register provide is nil"
    case DuplicateName(name) => "session: Register called twice for provide " + name
  }

  /** The panic texts tell the failures apart: distinct registration errors never share a
      message, so the duplicate message also names the provider. */
  lemma PanicMessageInjective(e1: RegisterError, e2: RegisterError)
    ensures PanicMessage(e1) == PanicMessage(e2) ==> e1 == e2
  {
    var nilText := "session: Register provide is nil";
    var dupText := "session: Register called twice for provide ";
    if e1.DuplicateName? && e2.DuplicateName? && PanicMessage(e1) == PanicMessage(e2) {
      assert e1.name == PanicMessage(e1)[|dupText|..];
      assert e2.name == PanicMessage(e2)[|dupText|..];
    } else if e1 != e2 && e1.NilProvider? != e2.NilProvider? {
      assert nilText[18] != dupText[18];
      assert PanicMessage(e1)[18] != PanicMessage(e2)[18];
    }
  }

  /** `Register` panics with the nil-provider message exactly when no provider is given, and
      otherwise, on a taken name, with the message naming that provider. */
  lemma RegisterPanicMessage<P>(registry: map<string, P>, name: string, provide: Option<P>)
    ensures var r := Register(registry, name, provide);
      r.Failure? ==> (PanicMessage(r.error) == "session: Register provide is nil" <==> provide.None?)
    ensures var r := Register(registry, name, provide);
      r.Failure? && provide.Some? ==> PanicMessage(r.error) == "session: Register called twice for provide " + name
  {
    var r := Register(registry, name, provide);
    if r.Failure? {
      PanicMessageInjective(r.error, NilProvider);
    }
  }

  /** `Register`: a nil provider is refused first, then a name already taken; otherwise the
      registry gains `name` and nothing else changes. `None` stands for a nil provider. */
  function Register<P>(registry: map<string, P>, name: string, provide: Option<P>): (r: Result<map<string, P>, RegisterError>)
    ensures r.Failure? <==> provide.None? || name in registry
    ensures provide.None? ==> r == Failure(NilProvider)
    ensures provide.Some? && name in registry ==> r == Failure(DuplicateName(name))
    ensures r.Success? ==>
      && r.value.Keys == registry.Keys + {name}
      && r.value[name] == provide.value
      && forall n :: n in registry ==> r.value[n] == registry[n]
  {
    match provide
    case None => Failure(NilProvider)
    case Some(p) => if name in registry then Failure(DuplicateName(name)) else Success(registry[name := p])
  }

  /** A manager: the cookie carrying the session id, the selected provider and the
      lifetime in seconds (Go's `int64`, here unbounded). */
  datatype Manager<P> = Manager(cookieName: string, provider: P, maxlifetime: int)

  /** Why `NewManager` fails. */
  datatype ManagerError = UnknownProvider(name: string)

  /** `NewManager`: fails exactly when no provider is registered under `providerName`. */
  function NewManager<P>(registry: map<string, P>, providerName: string, cookieName: string, maxlifetime: int): (r: Result<Manager<P>, ManagerError>)
    ensures r.Failure? <==> providerName !in registry
    ensures r.Failure? ==> r.error == UnknownProvider(providerName)
    ensures r.Success? ==>
      && r.value.provider == registry[providerName]
      && r.value.cookieName == cookieName
      && r.value.maxlifetime == maxlifetime
  {
    if providerName in registry then Success(Manager(cookieName, registry[providerName], maxlifetime))
    else Failure(UnknownProvider(providerName))
  }

  /** After a successful registration, a manager can be built on exactly that provider,
      and building one on any other name behaves as before. */
  lemma RegisterThenNewManager<P>(registry: map<string, P>, name: string, provide: P,
                                  other: string, cookieName: string, maxlifetime: int)
    requires name !in registry
    ensures Register(registry, name, Some(provide)).Success?
    ensures var reg := Register(registry, name, Some(provide)).value;
      && NewManager(reg, name, cookieName, maxlifetime) == Success(Manager(cookieName, provide, maxlifetime))
      && (other != name ==> NewManager(reg, other, cookieName, maxlifetime) == NewManager(registry, other, cookieName, maxlifetime))
  {
    var reg := Register(registry, name, Some(provide)).value;
    assert reg == registry[name := provide];
  }

  /** A `Set-Cookie` directive; `expiresNow` is an `Expires` attribute set to the moment of
      the call (so the cookie is already in the past for the client). */
  datatype Cookie = Cookie(name: string, value: string, path: string, httpOnly: bool, maxAge: int, expiresNow: bool)

  /** The provider call a manager operation makes. */
  datatype ProviderCall = CallInit(sid: string) | CallRead(sid: string) | CallDestroy(sid: string) | NoCall

  /** What a manager operation does for one request: one provider call and at most one
      cookie written back. */
  datatype Plan = Plan(call: ProviderCall, cookie: Option<Cookie>)

  /** `url.QueryEscape` and `url.QueryUnescape`; `None` is an unescaping error. */
  datatype QueryCodec = QueryCodec(escape: string -> string, unescape: string -> Option<string>)

  /** The one fact assumed of the library: unescaping undoes escaping. */
  ghost predicate RoundTrips(codec: QueryCodec)
  {
    forall s :: codec.unescape(codec.escape(s)) == Some(s)
  }

  /** `sid, _ := url.QueryUnescape(v)`: the error is discarded, leaving the empty string. */
  function Unescape(codec: QueryCodec, v: string): (sid: string)
    ensures codec.unescape(v).Some? ==> sid == codec.unescape(v).value
    ensures codec.unescape(v).None? ==> sid == ""
    ensures RoundTrips(codec) ==> forall s :: v == codec.escape(s) ==> sid == s
  {
    match codec.unescape(v)
    case Some(s) => s
    case None => ""
  }

  /** Is there a usable session cookie? (`err != nil || cookie.Value == ""` means no.) */
  predicate HasCookie(cookie: Option<string>)
  {
    cookie.Some? && cookie.value != ""
  }

  /** `SessionStart`'s decision. Without a usable cookie: initialise a session under the
      freshly generated `sid` and issue a cookie carrying it, escaped. With one: read the
      session named by the unescaped cookie value and write no cookie. */
  function StartPlan<P>(m: Manager<P>, cookie: Option<string>, sid: string, codec: QueryCodec): (r: Plan)
    ensures !HasCookie(cookie) ==>
      && r.call == CallInit(sid)
      && r.cookie == Some(Cookie(m.cookieName, codec.escape(sid), "/", true, m.maxlifetime, false))
    ensures HasCookie(cookie) ==> r.call == CallRead(Unescape(codec, cookie.value)) && r.cookie == None
  {
    if !HasCookie(cookie) then
      Plan(CallInit(sid), Some(Cookie(m.cookieName, codec.escape(sid), "/", true, m.maxlifetime, false)))
    else
      Plan(CallRead(Unescape(codec, cookie.value)), None)
  }

  /** `SessionDestroy`'s decision. Without a usable cookie: nothing. With one: destroy the
      session named by the RAW cookie value (it is not unescaped) and expire the cookie. */
  function DestroyPlan<P>(m: Manager<P>, cookie: Option<string>): (r: Plan)
    ensures !HasCookie(cookie) ==> r.call == NoCall && r.cookie == None
    ensures HasCookie(cookie) ==>
      && r.call == CallDestroy(cookie.value)
      && r.cookie == Some(Cookie(m.cookieName, "", "/", true, -1, true))
  {
    if !HasCookie(cookie) then Plan(NoCall, None)
    else Plan(CallDestroy(cookie.value), Some(Cookie(m.cookieName, "", "/", true, -1, true)))
  }

  /** A request without the manager's cookie and one whose cookie is empty are handled
      alike by both operations; any other cookie makes `SessionStart` read instead of
      initialise and makes `SessionDestroy` destroy instead of doing nothing. */
  lemma NoCookieIsEmptyCookie<P>(m: Manager<P>, cookie: Option<string>, sid: string, codec: QueryCodec)
    ensures StartPlan(m, None, sid, codec) == StartPlan(m, Some(""), sid, codec)
    ensures DestroyPlan(m, None) == DestroyPlan(m, Some(""))
    ensures StartPlan(m, cookie, sid, codec).call.CallInit? <==> cookie.None? || cookie == Some("")
    ensures StartPlan(m, cookie, sid, codec).call.CallInit? <==> DestroyPlan(m, cookie).call == NoCall
    ensures StartPlan(m, cookie, sid, codec).cookie.Some? <==> DestroyPlan(m, cookie).cookie.None?
  {
  }

  /** The outcome of reading 32 bytes from the system's random source. */
  datatype Entropy = Filled(bytes: seq<bv8>) | ReadFailed

  /** `sessionId`: the URL-safe base64 text of the random bytes (`encode`), or the empty
      string when reading randomness failed. */
  function SessionId(read: Entropy, encode: seq<bv8> -> string): (sid: string)
    ensures read.ReadFailed? ==> sid == ""
    ensures read.Filled? ==> sid == encode(read.bytes)
  {
    match read
    case Filled(bytes) => encode(bytes)
    case ReadFailed => ""
  }

  /** The cookie `SessionStart` issues leads the next `SessionStart` back to the same id
      (given that the escaped id is not empty). */
  lemma IssuedCookieResumes<P>(m: Manager<P>, sid: string, next: string, codec: QueryCodec)
    requires RoundTrips(codec) && codec.escape(sid) != ""
    ensures var issued := StartPlan(m, None, sid, codec).cookie;
      && issued.Some?
      && StartPlan(m, Some(issued.value.value), next, codec) == Plan(CallRead(sid), None)
  {
    var v := codec.escape(sid);
    assert Unescape(codec, v) == sid;
  }

  /** `SessionStart` and `SessionDestroy` given the same cookie address the same session
      exactly when the cookie value unescapes to itself. */
  lemma StartDestroySameTarget<P>(m: Manager<P>, v: string, sid: string, codec: QueryCodec)
    requires v != ""
    ensures StartPlan(m, Some(v), sid, codec).call.sid == DestroyPlan(m, Some(v)).call.sid
        <==> codec.unescape(v) == Some(v)
  {
  }

  /** When reading randomness fails, `SessionStart` without a cookie initialises the
      session with the empty id and issues a cookie carrying its escaped form. */
  lemma FailedRandomStartsEmptyId<P>(m: Manager<P>, cookie: Option<string>, encode: seq<bv8> -> string, codec: QueryCodec)
    requires !HasCookie(cookie)
    ensures var plan := StartPlan(m, cookie, SessionId(ReadFailed, encode), codec);
      plan.call == CallInit("") && plan.cookie.Some? && plan.cookie.value.value == codec.escape("")
  {
  }
}

=== FILE: store.dfy ===
/** One session's record: its id, its last-access time and its key/value bag
    (`SessionStore` in memory/memory.go). */
module Store {
  import opened Wrappers

  /** `timeAccessed` is a Unix time in whole seconds; `values` stands for Go's
      `map[interface{}]interface{}` with the key and value types made generic. */
  datatype SessionStore<K, V> = SessionStore(sid: string, timeAccessed: int, values: map<K, V>)

  /** A freshly created store: the given id, stamped `now`, no values. */
  function NewStore<K, V>(sid: string, now: int): (st: SessionStore<K, V>)
    ensures st.sid == sid && st.timeAccessed == now && |st.values| == 0
  {
    SessionStore(sid, now, map[])
  }

  /** The id the store was created with (`SessionID`). */
  function SessionID<K, V>(st: SessionStore<K, V>): string
  {
    st.sid
  }

  /** A store answers `SessionID` with the id it was created with, whatever values are
      later bound or unbound in it. */
  lemma SessionIDKept<K(!new), V>(sid: string, now: int, st: SessionStore<K, V>, key: K, value: V)
    ensures SessionID(NewStore<K, V>(sid, now)) == sid
    ensures SessionID(Put(st, key, value)) == SessionID(st)
    ensures SessionID(Drop(st, key)) == SessionID(st)
  {
  }

  /** The value stored under `key`, or `None` when the key is unset (Go returns `nil`). */
  function Lookup<K, V>(st: SessionStore<K, V>, key: K): (r: Option<V>)
    ensures r.Some? <==> key in st.values
    ensures r.Some? ==> r.value == st.values[key]
  {
    if key in st.values then Some(st.values[key]) else None
  }

  /** The store with `key` bound to `value`; id and access time untouched. */
  function Put<K(!new), V>(st: SessionStore<K, V>, key: K, value: V): (r: SessionStore<K, V>)
    ensures r.sid == st.sid && r.timeAccessed == st.timeAccessed
    ensures Lookup(r, key) == Some(value)
    ensures forall k :: k != key ==> Lookup(r, k) == Lookup(st, k)
  {
    st.(values := st.values[key := value])
  }

  /** The store with `key` unbound (a no-op when it was unset); id and access time untouched. */
  function Drop<K(!new), V>(st: SessionStore<K, V>, key: K): (r: SessionStore<K, V>)
    ensures r.sid == st.sid && r.timeAccessed == st.timeAccessed
    ensures Lookup(r, key) == None
    ensures forall k :: k != key ==> Lookup(r, k) == Lookup(st, k)
  {
    st.(values := st.values - {key})
  }
}

=== FILE: wrappers.dfy ===
/** Small failure-carrying datatypes shared by the session model. */
module Wrappers {

  /** An optional value; `None` plays the role of Go's `nil` / "not found". */
  datatype Option<+T> = None | Some(value: T)

  /** The outcome of an operation that either succeeds with a value or fails with an error. */
  datatype Result<+T, +E> = Success(value: T) | Failure(error: E)
}
